=== FILE: README.md ===
# fudo-backend: authentication, sessions and account rules in Dafny

This project models the authentication and session core of the fudo-backend
food-ordering service, together with the account, shipping-address and
order-placing handlers that sit on it.

- **OTP registration and password reset.** A client asks for a one-time
  password (`sendOtp`, `forgetPassword`) and receives a stateless ticket:
  an HMAC-SHA256 signature over the OTP, the email, the expiry and (for
  registration) the bcrypt hash of the password, joined with `#` to the
  expiry and the hash. Redeeming the ticket (`verifyOtp`, `setPassword`)
  splits it on `#`, checks the expiry, re-signs what the client echoes back
  and compares.
- **Sessions.** `verifyOtp`, `login` and `refresh` each save one
  refresh-token record, valid for a year, and put its id in the refresh JWT
  as `tokenId`. `refresh` deletes the record it was given before saving a
  new one; `logout` deletes it.
- **Gates.** The refresh-token gate accepts a token only while its record
  exists. The login guard refuses any client that carries a refresh cookie.
  The permission gate checks the token's role.
- **Accounts, addresses, orders.** Users rename themselves, change their
  password and delete their account. Admins read, update and delete
  accounts. Users add, edit and delete shipping addresses. An order saves
  one item per cart entry, a payment of the summed price and the order.

The repository carries two revisions of every controller: the current one
(`Auth.ts`, `User.ts`, `Shipping.ts`, `Order.ts`) and an earlier one
(`auth.controller.ts`, `user.controller.ts`, `shipping.controller.ts`,
`order/index.ts`). A handler takes `Http.Revision` where the two differ.

Each handler is a pure function from the store (`Store.Db`, one
auto-increment `Tables.Table` per entity) and the request to a
`Replies.Step`: the store afterwards and the reply. The order handler is a
method with loops. The request time `now` in milliseconds, the bcrypt salt
and the OTP draw are parameters. bcrypt and HMAC-SHA256 are uninterpreted
functions in a `Credential.Crypto` value. The facts the proofs rely on are
ghost predicates that lemmas require explicitly:

- `BcryptSound`: a bcrypt hash accepts exactly the plaintexts with the hashed one's key. The key is the UTF-8 bytes (`Utf8.Encode`) and a terminating zero, cut after 72 bytes;
- `BcryptAcceptsItsPlaintext`: the part of `BcryptSound` saying a hash accepts its own plaintext;
- `TicketSafe`: no digest or hash contains `#`;
- `HmacCollisionFree`: HMAC under one key never collides.

JWTs are symbolic. A token records its algorithm, the key it was signed
with, its claims and its times.

Modules, one file each: `Wrappers`, `Http`, `Text`, `Tables`, `Store`,
`Utf8`, `Credential`, `Jwt`, `Tokens`, `OtpTicket`, `Gates`, `Replies`, `Auth`,
`AuthProperties`, `Users`, `Shippings`, `Orders`.

## Model

| member | source | states |
|---|---|---|
| Credential.HashDataWithSecret | src/services/Credential.ts:18-25 | Fails with 500 "Hash secret is not found!" exactly when HASH_SECRET is unset or empty. Otherwise the result is the HMAC-SHA256 digest of the data under the secret, so equal inputs give equal digests. |
| Credential.HashCompareComparesKeys | src/services/Credential.ts:9-16 | With sound bcrypt, `hashCompare(q, hashData(p))` holds exactly when `q` and `p` have the same bcrypt key, so a hash always accepts its own plaintext. |
| Credential.HashCompareAcceptsExactlyTheHashedPlaintext | src/services/Credential.ts:9-16 | Suppose a password's UTF-8 bytes plus the terminator stay under 72 bytes. Then its hash accepts it and refuses every other plaintext. |
| Credential.LongPasswordsShareTheirHash | src/services/Credential.ts:9-16 | Two plaintexts that share their first 72 characters are accepted by each other's hash, whatever follows. |
| Credential.SeventyThirdCharacterIsIgnored | src/services/Credential.ts:14-16 | 72 `a`s followed by `1` differs from 72 `a`s followed by `2`, yet the hash of the second accepts the first. |
| Credential.GetOtp | src/services/Credential.ts:27-29 | The OTP lies in [1000, 9998]: the upper bound of `randomInt` is excluded. |
| Credential.OtpRangeIsExact | src/services/credential.services.ts:25-27 | A value can be drawn as an OTP if and only if it lies in [1000, 9998]. |
| Tokens.SignAccessToken | src/services/Token.ts:11-22 | Fails with 500 exactly when PRIVATE_KEY is missing. Otherwise the token is RS256 under the key, carries the payload and issuer "fudo-service", expires 24 hours after issue and has no `jti`. |
| Tokens.SignRefreshToken | src/services/Token.ts:24-36 | Fails with 500 exactly when REFRESH_TOKEN_SECRET is missing. Otherwise the token is HS256 under the secret, carries the payload and issuer "fudo-service", expires one year after issue and has `jti` "undefined". |
| Tokens.VerifyRefreshToken | src/services/Token.ts:38-42 | A missing secret gives 500. Otherwise the result is the claims exactly for an HS256 token signed with the secret whose expiry has not passed. |
| Tokens.RefreshTokenVerifiesUntilExpiry | src/services/token.services.ts:24-52 | A signed refresh token verifies exactly until its `exp` second begins. An access token never verifies as a refresh token. |
| Tokens.JwtIdDoesNotNameTheSession | src/services/Token.ts:32 | Every refresh token carries the same `jti`, whatever its payload and issue time, so `jti` cannot tell sessions apart. |
| Tokens.SaveRefreshToken | src/services/token.services.ts:38-42 | Adds exactly one record for the user under a fresh id, expiring 365 days of milliseconds after `now`. |
| Tokens.DeleteToken | src/services/Token.ts:60-62 | Removes the record with that id; every other record is kept unchanged. |
| Tokens.SavedRecordReadsBackUntilDeleted | src/services/Token.ts:44-62 | A saved record reads back by its id, survives the deletion of any other id, and is gone after its own deletion. |
| OtpTicket.IssueRegistration | src/controllers/Auth.ts:57-66 | Fails with 500 exactly when HASH_SECRET is missing. |
| OtpTicket.IssueReset | src/controllers/Auth.ts:341-347 | Fails with 500 exactly when HASH_SECRET is missing. |
| OtpTicket.RegistrationTicketReadsBack | src/controllers/Auth.ts:60-111 | A registration ticket splits on `#` into exactly three fields: the signature over (otp, email, expiry, hash), the expiry, and the hash. Its expiry is exceeded exactly after issue time plus fifteen minutes. |
| OtpTicket.ResetTicketReadsBack | src/controllers/Auth.ts:341-401 | A reset ticket splits into exactly two fields: the signature and the expiry. The expiry is exceeded exactly after issue time plus ten minutes. |
| OtpTicket.DottedDataShift | src/controllers/Auth.ts:63-65 | With the dot-joined input, the data signed for email `a.b` with expiry `e` equals the data for email `a` with expiry `b.e`. This holds for both registration and reset. |
| OtpTicket.FramedDataBindsEveryField | src/controllers/Auth.ts:403-406 | With length-prefixed framing, two signed inputs are equal if and only if the OTP, email, expiry and hash are all equal. |
| Text.SplitJoin | src/controllers/Auth.ts:91-96 | `split` undoes `join` for pieces that do not contain the separator. |
| Text.NumberOfIntToString | src/controllers/Auth.ts:108 | `+String(n)` is `n` for every integer: a rendered expiry reads back as itself and names row `n`. |
| Text.StrayCharacterIsNaN | src/controllers/Auth.ts:398 | Under the modelled `Number`, a string containing a character outside `0-9 . + -` converts to NaN, so `now > +expires` is false. This covers the tickets of the findings, whose expiry field carries a letter-bearing domain part. |
| Store.FindByEmail | src/services/User.ts:29-34 | Finds a user exactly when some stored user has the email. The answer has that email, and no lower id does. |
| Store.LookupId | src/services/User.ts:8-13 | Finds a row exactly when the parameter converts to an integral number that is a stored id. The row found is that id. |
| Gates.IsRevoked | src/middlewares/checkRefreshToken.middleware.ts:16-34 | The token is not revoked exactly when it decoded, the store did not throw, and a record exists with id `Number(tokenId)` owned by `Number(userId)`. |
| Gates.RecordExpiryIsNeverConsulted | src/middlewares/checkRefreshToken.middleware.ts:21-27 | Two token tables with the same ids and owners get the same revocation verdict, whatever the records' `expiresAt`. |
| Gates.CheckRefreshToken | src/middlewares/checkRefreshToken.middleware.ts:9-35 | Accepts exactly a `refreshToken` cookie that verifies as HS256 under `REFRESH_TOKEN_SECRET ?? ""` and is not revoked, and yields its claims. Every refusal is a 401. |
| Gates.GateFollowsTheRecord | src/middlewares/checkRefreshToken.middleware.ts:20-27 | A well-signed, unexpired refresh token passes exactly while its record exists; otherwise it is refused as revoked. |
| Gates.CheckInvalidRefreshToken | src/middlewares/checkInvalidRefreshToken.middleware.ts:11-22 | With no cookie the request proceeds. A cookie that verifies gives 400 "User already login!". A cookie that fails to verify gives 500. |
| Gates.AnyCookieBlocksLogin | src/middlewares/checkInvalidRefreshToken.middleware.ts:12-21 | Any refresh cookie at all stops the request before login. |
| Gates.HasPermission | src/middlewares/hasPermission.middleware.ts:5-19 | Passes exactly when the token's role is in the list, so an empty list refuses everyone. Otherwise the result is 403 "You don't have enough permissions". |
| Gates.PermissionDependsOnlyOnTheRole | src/middlewares/hasPermission.middleware.ts:5-19 | Two tokens with the same role get the same verdict, whatever user and token id they carry. A role admitted by a list is admitted by any longer list. |
| Auth.OpenSession | src/controllers/Auth.ts:232-262 | Replies with the user exactly when both signing keys are set. It then adds exactly one token record for the user, expiring a year after `now`. The refresh cookie is HS256 and names that record in `tokenId`; the access cookie is RS256 with the same payload, expires 24 hours after issue and has no `jti`. A missing PRIVATE_KEY fails before any write. |
| Auth.Revoke | src/controllers/Auth.ts:283 | Deletes exactly the record `Number(tokenId)`, if any, and keeps every other record. |
| Auth.SendOtp | src/controllers/Auth.ts:29-77 | Never writes. A confirmation mismatch gives 400, and then a registered email gives 400. An OTP is sent exactly when neither applies and the secret is set; its ticket is the registration ticket over the drawn OTP, the email and the bcrypt hash of the password. |
| Auth.RedeemRegistration | src/controllers/Auth.ts:91-120 | Checks in order: 400 unless there are three `#`-fields, 400 for a registered email, 408 after the expiry, then the signature. It succeeds exactly when all pass, answering the ticket's hash. A 400 "Otp is invalid!" means a bad field count or a bad signature. |
| Auth.VerifyOtp | src/controllers/Auth.ts:79-167 | A failed redemption writes nothing and returns its error. A success saves the user with the ticket's hash under a fresh id and opens a session for it. |
| Auth.Self | src/controllers/Auth.ts:169-178 | Never writes. Replies with the user the token names, or 400 when there is none. |
| Auth.Logout | src/controllers/Auth.ts:180-196 | Deletes only the token's record, clears both cookies and replies with a null user. |
| Auth.Login | src/controllers/Auth.ts:198-268 | An unknown email and a wrong password both give 400 "Email or Password does not match!" with no write. A login succeeds exactly when the email is found, the password matches and both keys are set. It opens a session for the user the email finds and never changes users. |
| Auth.Refresh | src/controllers/Auth.ts:270-320 | A missing user gives 400 with no deletion. Otherwise the presented record is deleted and a session is opened from the reduced table, so a recorded `tokenId` is absent afterwards. |
| Auth.ForgetPassword | src/controllers/Auth.ts:322-362 | Never writes. An unregistered email gives 400. Otherwise the reply is the user's name and a ten-minute reset ticket over the drawn OTP and the email. |
| Auth.RedeemReset | src/controllers/Auth.ts:364-409 | Checks in order: confirmation mismatch 400, field count other than 2 is 400, unregistered 400, expired 408, then the signature. It succeeds exactly when all pass, answering the id the email finds. |
| Auth.SetPassword | src/controllers/Auth.ts:410-420 | A failed redemption writes nothing. A success changes only the user's hash, to the bcrypt hash of the new password; token records survive. |
| Auth.LoginRoute | src/routes/auth.route.ts:88-94 | With any refresh cookie the store is unchanged and the request fails. Without one it is login. |
| Auth.RefreshRoute | src/routes/auth.route.ts:96-105 | The gate's refusal writes nothing; otherwise it is refresh with the token's claims. |
| Auth.LogoutRoute | src/routes/auth.route.ts:77-86 | The gate's refusal writes nothing. Otherwise the token's record is gone, both cookies are cleared, and only the token table changes. |
| AuthProperties.RegistrationRoundTrip | src/controllers/Auth.ts:57-130 | A sendOtp ticket, echoed to verifyOtp with its OTP and email within fifteen minutes, redeems to the bcrypt hash of the password sent. It registers the user with that hash under the given name and email. |
| AuthProperties.RegisteredAccountIsUsable | src/controllers/Auth.ts:126-144 | After a registration that opened a session, self with the access cookie's claims finds the new user. Given that a bcrypt hash accepts its own plaintext, login with the password succeeds. |
| AuthProperties.OtpIsBound | src/controllers/Auth.ts:63-65 | Under either binding, different OTPs give different signed data. |
| AuthProperties.TamperedOtpIsRejected | src/controllers/Auth.ts:113-120 | verifyOtp with any OTP other than the one drawn fails with 400 "Otp is invalid!" and writes nothing. |
| AuthProperties.ForeignEmailRegistration | src/controllers/Auth.ts:96-120 | As written, a ticket issued for `a.s` redeems for email `a` once `s` is moved into the expiry field. If `s` holds a non-numeric character it redeems at any later time. |
| AuthProperties.FramedRegistrationTicketBindsItsEmail | src/controllers/auth.controller.ts:51-57 | With framing, an issued signature redeems only with the issued email, OTP and fields, and never after the issued expiry. |
| AuthProperties.ForeignEmailPasswordReset | src/controllers/Auth.ts:389-414 | As written, a reset ticket issued to the holder of `a.s` resets the password of account `a`, at any later time. |
| AuthProperties.FramedResetTicketBindsItsEmail | src/controllers/Auth.ts:398-409 | With framing, an issued reset signature redeems only with its email, OTP and expiry, and never after that expiry. |
| AuthProperties.PasswordResetRoundTrip | src/controllers/Auth.ts:341-416 | A reset ticket echoed within ten minutes sets the account's hash to the hash of the new password and leaves its token records. When a bcrypt hash accepts its own plaintext, the new password then matches. |
| AuthProperties.RotationRetiresThePresentedToken | src/controllers/Auth.ts:283-301 | After a successful refresh, the token presented is refused with 401 and writes nothing. The token issued is accepted until it expires. |
| AuthProperties.LogoutRetiresTheSession | src/controllers/Auth.ts:184 | After logout, the same refresh token is refused by refresh (401, no write) and by logout. |
| AuthProperties.LoggedOutCookieStillBlocksLogin | src/middlewares/checkInvalidRefreshToken.middleware.ts:15-18 | A logged-out but unexpired refresh cookie still gets 400 "User already login!" at login, because the guard never looks at the records. |
| AuthProperties.LoginDoesNotRevealWhichCheckFailed | src/controllers/Auth.ts:211-227 | An unknown email and a known email with a wrong password give the identical step. |
| AuthProperties.OnlyTheCurrentRevisionSendsTheHash | src/controllers/auth.controller.ts:240-246 | The earlier login replies with `password: null`. The current one replies with the stored bcrypt hash. |
| Users.RemoveUser | src/entity/Shipping.ts:26 | The user row goes, with exactly the addresses it owns (`onDelete: "CASCADE"`). Every other address is kept unchanged. |
| Users.UpdateUserFullName | src/controllers/User.ts:23-49 | A missing user gives 400 with no write. Otherwise only the user's `fullName` changes, and the reply is the updated user. |
| Users.RenameReadsBackThroughSelf | src/controllers/User.ts:23-49 | After a rename, `self` with the same token shows the new name, with email, role and status as they were. |
| Users.ChangePassword | src/controllers/User.ts:51-86 | A missing user gives 400. A non-matching old password gives 400 with the store unchanged. Otherwise only the hash changes, to `hashData(newPassword)`. |
| Users.ChangedPasswordReplacesTheHash | src/controllers/User.ts:67-80 | With sound bcrypt, a change from the right old password succeeds. The new hash accepts the new password. It accepts the old one exactly when the two share their bcrypt key, and when the keys differ the stored hash changes. |
| Users.OldPasswordSurvivesALongSharedPrefix | src/controllers/User.ts:67-80 | A change between two passwords sharing their first 72 characters succeeds, and the old password still matches the new hash. |
| Users.DeleteUser | src/controllers/User.ts:88-107 | A missing user gives 400. Otherwise the account and its addresses go, both cookies are cleared and the user is null. |
| Users.DeletedAccountIsGone | src/controllers/User.ts:92-103 | After self-deletion, the same token finds no user for rename or deletion, and no address is owned by the id. |
| Users.GetUser | src/controllers/user.controller.ts:105-117 | Never writes. A non-numeric id gives 400, and so does a missing user. The reply is the user exactly when the id names one, with the password nulled in the earlier revision. |
| Users.UpdateUser | src/controllers/User.ts:175-205 | A non-numeric id gives 400, and so does a missing user. Otherwise exactly `role` and `status` change. |
| Users.UpdatedRoleReadsBack | src/controllers/User.ts:175-205 | After an admin update, `getUser` on the same id shows the new role and status with the name and email kept. `getUser` on every other id replies exactly as before. |
| Users.DeleteUserByAdmin | src/controllers/User.ts:156-173 | A non-numeric id gives 400, and so does a missing user. Otherwise that account and its addresses go. |
| Users.AdminAndSelfDeletionAgree | src/controllers/User.ts:157-167 | The admin deletion of a user's own id leaves the same store as that user's self-deletion. |
| Shippings.OwnerView | src/services/Shipping.ts:12-19 | The `user` an address is reloaded with: present exactly when the owner's row exists, and then it carries the owner's id, email and stored hash. |
| Shippings.PostShipping | src/controllers/Shipping.ts:19-54 | A missing user gives 400. Otherwise exactly one address is added under a fresh id, owned by the caller. The current revision replies with the address and its `user`, the caller's entity with the stored hash. The earlier one stores no country and replies with the user, password nulled. |
| Shippings.DeleteShipping | src/controllers/Shipping.ts:56-91 | Deletes if and only if the user exists, the address exists and the caller owns it. It removes exactly that address. Every refusal is a 400 with the store unchanged, in the order: non-numeric id, missing user, missing address, other owner. |
| Shippings.UpdateShipping | src/controllers/Shipping.ts:129-171 | After the id, user and address checks it overwrites the address fields of any address, keeping its owner. The current revision replies with the address and the owner's entity, stored hash included. The earlier revision keeps `country` and replies with no owner. |
| Shippings.NonOwnerEditReceivesTheOwnersHash | src/controllers/Shipping.ts:145-167 | In the current revision, a caller who does not own an address and edits it is sent the owner's id, email and bcrypt hash. The earlier revision sends no owner. |
| Shippings.DeleteShippingByAdmin | src/controllers/Shipping.ts:186-212 | A non-numeric id or a missing address gives 400. Otherwise the address goes, with no user or owner check. |
| Shippings.OnlyTheOwnerDeletes | src/controllers/Shipping.ts:75-83 | Another user's deletion leaves the addresses unchanged. The owner's deletion gives exactly the admin deletion. |
| Shippings.AnyUserEditsAnyAddress | src/controllers/shipping.controller.ts:137-152 | A caller whom `deleteShipping` refuses as not the owner can still overwrite the same address through `updateShipping`. The owner stays someone else. |
| Shippings.EditedAddressDeletesAsBefore | src/controllers/Shipping.ts:129-171 | In either revision, an edited address stays deletable by its owner, and deleting it then leaves the same addresses as deleting it unedited. |
| Shippings.PostedAddressIsDeletableByItsOwner | src/controllers/Shipping.ts:35-50 | The poster deletes a posted address with the id it was given, restoring the addresses as they were. |
| Orders.FindOwnedShipping | src/services/shipping/index.ts:41-51 | Finds an address exactly when both ids are numbers and the address with the shipping id is owned by the user id. |
| Orders.FindOwnedShippingAsWritten | src/controllers/Order.ts:47-50 | With the arguments swapped, it finds the address whose id is the caller's user id, owned by the user whose id is the requested shipping id. |
| Orders.SwappedLookupMisroutes | src/services/Shipping.ts:37-47 | On a one-address table, the owner is refused their own address, and another user is served it. |
| Orders.SwappedLookupServesAStranger | src/controllers/Order.ts:47-54 | Whenever the address numbered like the caller belongs to someone else, the swapped lookup serves it to the caller, while the intended lookup refuses. |
| Orders.UnmatchedSizeCostsNothing | src/controllers/Order.ts:74-77 | A size that matches no price adds nothing to the total. |
| Orders.SizePriceSplits | src/controllers/Order.ts:74-78 | Every price of the size counts, wherever it sits in the list: the price of a concatenation is the sum of the parts. |
| Orders.CartTotalSplits | src/controllers/Order.ts:59-80 | The cart total is additive over any split of the cart. |
| Orders.FirstUnknown | src/controllers/Order.ts:61-66 | The index where the loop stops: every earlier entry names a known product, and the entry there, if any, does not. |
| Orders.FirstUnknownIsTheFirst | src/controllers/Order.ts:61-66 | Any index with only known products before it and an unknown one at it (or the cart's end) is the stopping index. |
| Orders.SaveAllSavesEachEntry | src/controllers/Order.ts:70-79 | Saving the entries in turn gives each its own fresh item row, in order, for its product and quantity. It adds no other row and keeps the old ones. |
| Orders.AddLineAmount | src/controllers/Order.ts:74-78 | The `forEach` adds quantity times the summed price of the entry's size. |
| Orders.UnloadedPrices | src/controllers/order/index.ts:56-70 | The earlier loop on a non-empty cart. A first key that is not an integral number gives a 500 from the database, and an unknown first product gives 400; neither writes. A known one gets its order item saved as the next row, then reading its unloaded prices ends the request in a 500. Nothing but the item table changes. |
| Orders.SaveItems | src/controllers/Order.ts:59-80 | The loop stops at the first unknown product. The items saved are exactly the entries before it, under consecutive fresh ids. When it completes, the running total is the cart's total. |
| Orders.AddOrderItems | src/controllers/Order.ts:31-101 | A missing user or an unfound address gives 400 with no write. A shipping id that is not an integral number reaches the query unguarded, and the database's refusal gives a 500 with no write. A cart key that is not integral gives a 500 where an unknown product would give 400. In the current revision, an unknown product gives 400 and keeps the items saved before it, with no payment or order. Otherwise a "net banking" payment of the cart total is saved. An order is saved linking the caller, the address, the payment and exactly the new items. In the earlier revision (`src/controllers/order/index.ts:56-75`), whose product lookup loads no prices, a non-empty cart never places an order: an unknown first product gives 400 with no write, and a known one keeps its one item and ends in a 500. Only the item, payment and order tables change. |

## Left out

- Request validation (`src/validators/**`), Express request and response plumbing, cookie options, logging: their behaviour lives in libraries. Validated bodies arrive as typed parameters, so roles and statuses are `Store.Role` and `Store.Status` values.
- The access-token gate (`checkAccessToken`) fetches keys over the network. Its verified `{userId, role}` payload is the `auth` parameter of the handlers behind it.
- bcrypt, HMAC-SHA256 and JWT encoding are not computed: they are uninterpreted functions and symbolic tokens, with the facts the proofs need required as predicates.
- Credential.HashCompareAcceptsExactlyTheHashedPlaintext: promises that a hash refuses every other plaintext only for passwords whose UTF-8 bytes and terminator stay under 72 bytes. bcrypt reads no more of a key than that, so longer passwords are covered by `Credential.HashCompareComparesKeys` and `Credential.LongPasswordsShareTheirHash` instead.
- Users.ChangedPasswordReplacesTheHash: no longer promises that the old password is refused after a change. It is refused exactly when its bcrypt key differs from the new password's, and two passwords sharing their first 72 bytes both keep working (`Users.OldPasswordSurvivesALongSharedPrefix`).
- The bcrypt key is taken from the password's full UTF-8 encoding, zero characters included. Bindings that stop at the first zero byte are not modelled, and neither are unpaired UTF-16 surrogates, which Node replaces before encoding.
- Time and randomness are parameters: one `now` per request, a salt per `hashData` call and a draw per OTP.
- `Number(s)` and `+s` are modelled for the empty string and optionally signed decimal literals. Surrounding whitespace, exponents, hexadecimal, binary and octal prefixes and `Infinity` are not modelled; such strings count as NaN, where JavaScript may give a number.
- Text.StrayCharacterIsNaN: holds of the modelled `Number` only. In JavaScript `+" 7"`, `+"1e3"`, `+"0x1f"` and `+"Infinity"` are numbers, because whitespace and the letters of exponents, prefixes and `Infinity` are not stray there.
- Outside the order handler, a fractional id such as `"1.5"` passes the `isNaN` guards and is treated as naming no row (a 400). Postgres would refuse the query, and the request would end in a 500. The token's `userId` is assumed numeric, as the server signs it; a NaN `userId` would also be refused by the database.
- Orders.AddOrderItems: the cart arrives parsed, as a sequence of entries. A `cart` that `JSON.parse` rejects (`src/controllers/Order.ts:56`) and an entry that is not an object, such as `{"1": null}` (a TypeError at line 68), end in a 500 in the source and are not modelled.
- Replies.View: a user is sent as its id, name, email, password, role and status. `phoneNumber`, `countryCode`, `avatar` and the timestamps are not modelled. In the current revision `getById` and `getByEmail` (`src/services/User.ts:8-34`) also load the `shippings` relation. So self, login, refresh, setPassword and the user handlers list the user's addresses too, and the model leaves that list out. The `user` inside a shipping reply is loaded without its addresses and is modelled in full by `Shippings.OwnerView`.
- Persistence: the foreign key from token records to users, which may refuse a user deletion while records remain, is not modelled. Deleting a user removes the user row and its addresses only.
- Persistence: the order entity's constraints (`src/entity/Order.ts:23-36`) are not modelled, because the schema's migrations are not part of this model (`synchronize: false` in `src/config/data-source.ts:11`). The model's deletions and order saves succeed where the database may refuse them:
  - the order's user reference, with no `onDelete`, may refuse `Users.DeleteUser` and `Users.DeleteUserByAdmin` for a user who has orders;
  - the one-to-one shipping reference may refuse `Shippings.DeleteShipping` and `Shippings.DeleteShippingByAdmin` for an address an order names;
  - that reference is also unique, so a second order to the same address may fail at the order save, after its items and payment are written;
  - the `status` enum column has no default, and `addOrderItems` sets none.
- The `expiresAt` column is a date, which truncates the stored expiry. The model stores the millisecond value, which no code path reads back.
- The Shipping entity (`src/entity/Shipping.ts:17-27`) declares no `country` column, so the database would not keep the country the current revision saves. The model keeps it as the controller passes it.
- Concurrency: requests are sequential transitions. The race between two refreshes of the same record is out of scope.
- The cart is taken as the sequence of entries in the order `for ... in` over the parsed JSON visits them. Duplicate keys and the ordering of integer-like keys are left to that parse.
- `checkRefreshToken` passes `REFRESH_TOKEN_SECRET ?? ""`. What the JWT library does with an empty secret is not modelled: the library may refuse it when the module loads. The model's gate refuses every token with a 401 in that case.
- `updateUserProfilePicture`, `getUsers`, the single and list shipping reads, and `getAllShippings` are plain reads or uploads outside this core. The catalog handlers are left out for the same reason.
- `src/middlewares/error.middleware.ts` is not part of this model. An error a handler passes on with `next(error)` is taken to reach the client as a 500 carrying the error's message.
- The earlier revision's `updateUserPassword(user.id, hash)` is modelled by the same single-field update as the current `save(user)`.

## Findings

| source | as written | input that shows it | evidently intended | confidence | as-written member | corrected member |
|---|---|---|---|---|---|---|
| src/controllers/Auth.ts:63-66 | The OTP signature covers the fields joined with `.`, and the expiry is read back from the ticket, so a dot in the email can move into the expiry field. | A ticket for `victim@mail.com.x` with expiry `e`, sent back with email `victim@mail.com` and ticket `sig#x.e#hash`. The signed data is unchanged, and `+"x.e"` is NaN, so the ticket never expires. The same works for the reset ticket (`Auth.ts:344-409`): a password reset of the shorter account. | The signature determines every field, so a ticket redeems only for the email, OTP and expiry it was issued with. | high; not executed | AuthProperties.ForeignEmailRegistration | AuthProperties.FramedRegistrationTicketBindsItsEmail |
| src/controllers/Order.ts:47-50 | The lookup passes `(Number(userId), Number(shippingId))` to `getsShippingsByUserId(shippingId, userId)` (`src/services/Shipping.ts:37-47`), so the ids are swapped. | User 1 owning address 2 orders to shipping id 2 and gets 400. User 2 naming shipping id 1 is served user 1's address 2. | Find the requested address only when the caller owns it, as the earlier revision does (`src/services/shipping/index.ts:41-51`). | high; not executed | Orders.FindOwnedShippingAsWritten | Orders.FindOwnedShipping |

The first finding's reset half is stated by `AuthProperties.ForeignEmailPasswordReset` as written and `AuthProperties.FramedResetTicketBindsItsEmail` corrected. The underlying string fact is `OtpTicket.DottedDataShift` and its correction `OtpTicket.FramedDataBindsEveryField`. Handlers take a `Binding` to follow either encoding. The order handler's current revision follows the lookup as written, and its earlier revision the corrected one; for it, `Orders.AddOrderItems` ensures the caller owns the address ordered to. In the earlier revision only an empty cart reaches the order, because its product lookup loads no prices.

=== FILE: auth.dfy ===
/**
 * The authentication controller (controllers/Auth.ts, and the earlier
 * controllers/auth.controller.ts): OTP registration, login, the refresh
 * token rotation, logout, the current-user lookup and the OTP password
 * reset, each as a function from the store and the request to a `Step`.
 *
 * The request time `now` (milliseconds), the bcrypt salt and the OTP draw
 * are parameters. Every handler returns the store unchanged when it fails
 * before its first write.
 */
module Auth {
  import opened Wrappers
  import opened Http
  import opened Text
  import opened Credential
  import Jwt
  import opened Tables
  import opened Store
  import opened Replies
  import opened Tokens
  import opened OtpTicket
  import opened Gates

  const MsgConfirmMismatch := "Confirm password does not match to password!"
  const MsgAlreadyRegistered := "This email already registered!"
  const MsgOtpInvalid := "Otp is invalid!"
  const MsgOtpExpired := "Otp is expired!"
  const MsgCredentialsMismatch := "Email or Password does not match!"
  const MsgTokenUserMissing := "User whit token could not found!"
  const MsgNotRegistered := "This email is not registered!"
  const MsgResetConfirmMismatch := "confirm password not match to password!"

  /** `{userId: String(user.id), role: user.role}`. */
  function Payload(uid: int, u: User): (c: Jwt.Claims)
    ensures IdOf(c.userId) == Some(uid) && c.tokenId.None?
  {
    NumberOfIntToString(uid);
    Jwt.Claims(IntToString(uid), RoleName(u.role), None)
  }

  /** A registered user: the entity defaults give role customer and status valid. */
  function NewUser(fullName: string, email: string, passwordHash: string): User
  {
    User(fullName, email, passwordHash, Customer, Valid)
  }

  // ---------------------------------------------------------------------
  // Sessions

  /** `db'` is `db` with one more refresh-token record, `id`, for user `uid`, and nothing else changed. */
  ghost predicate RecordAdded(db: Db, db': Db, uid: int, now: int, id: int)
  {
    && id !in db.tokens.rows
    && db' == db.(tokens := db'.tokens)
    && db'.tokens.rows == db.tokens.rows[id := TokenRecord(uid, now + MsInYear)]
  }

  /**
   * A reply that opens a session for user `uid`: the new record `id`, an
   * RS256 access cookie with the user's payload, valid for 24 hours and
   * with no `jti`, and an HS256 refresh
   * cookie whose `tokenId` names the record, valid for a year.
   */
  ghost predicate StartsSession(cfg: Config, db: Db, r: Step, uid: int, u: User, now: int, rev: Revision, id: int)
  {
    && cfg.privateKey.Some? && cfg.refreshSecret.Some?
    && RecordAdded(db, r.db, uid, now, id)
    && r.reply.UserJson?
    && r.reply.user == Some(View(uid, u, rev))
    && r.reply.cookies.SetTokens?
    && r.reply.cookies.access.alg == Jwt.RS256
    && r.reply.cookies.access.signingKey == cfg.privateKey.value
    && r.reply.cookies.access.claims == Payload(uid, u)
    && r.reply.cookies.access.expiresAt == now / 1000 + AccessLifetime
    && r.reply.cookies.access.jwtId.None?
    && r.reply.cookies.refresh.alg == Jwt.HS256
    && r.reply.cookies.refresh.signingKey == cfg.refreshSecret.value
    && r.reply.cookies.refresh.claims == Payload(uid, u).(tokenId := Some(IntToString(id)))
    && r.reply.cookies.refresh.expiresAt == now / 1000 + RefreshLifetime
  }

  /**
   * The tail verifyOtp, login and refresh share: sign the access token,
   * save a record, sign the refresh token naming it, set both cookies and
   * reply with the user. A missing PRIVATE_KEY fails before the record is
   * saved; a missing REFRESH_TOKEN_SECRET fails after.
   */
  function OpenSession(cfg: Config, db: Db, uid: int, u: User, now: int, rev: Revision): (r: Step)
    requires db.WellFormed()
    ensures r.db.WellFormed()
    ensures r.reply.UserJson? <==> Present(cfg.privateKey) && Present(cfg.refreshSecret)
    ensures r.reply.UserJson? ==> exists id :: StartsSession(cfg, db, r, uid, u, now, rev, id)
    ensures !Present(cfg.privateKey) ==> r == Step(db, Failed(ServerError, MsgPrivateKeyMissing))
    ensures Present(cfg.privateKey) && !Present(cfg.refreshSecret) ==>
      && r.reply == Failed(ServerError, MsgRefreshSecretMissing)
      && exists id :: RecordAdded(db, r.db, uid, now, id)
  {
    match SignAccessToken(cfg, Payload(uid, u), now)
    case Err(e) => Step(db, Fail(e))
    case Ok(access) =>
      var (tokens', id) := SaveRefreshToken(db.tokens, uid, now);
      var db' := db.(tokens := tokens');
      assert RecordAdded(db, db', uid, now, id);
      match SignRefreshToken(cfg, Payload(uid, u).(tokenId := Some(IntToString(id))), now)
      case Err(e) => Step(db', Fail(e))
      case Ok(refresh) =>
        var r := Step(db', UserJson(Some(View(uid, u, rev)), SetTokens(access, refresh)));
        assert StartsSession(cfg, db, r, uid, u, now, rev, id);
        r
  }

  /** The records a refresh token's `tokenId` deletes: `delete(Number(tokenId))`. */
  function Revoke(tokens: Table<TokenRecord>, tokenId: Option<string>): (t: Table<TokenRecord>)
    ensures tokens.Valid() ==> t.Valid()
    ensures ClaimId(tokenId).None? ==> t == tokens
    ensures ClaimId(tokenId).Some? ==> t.rows.Keys == tokens.rows.Keys - {ClaimId(tokenId).value}
    ensures t.next == tokens.next
    ensures forall id :: id in t.rows ==> id in tokens.rows && t.rows[id] == tokens.rows[id]
  {
    match ClaimId(tokenId)
    case None => tokens
    case Some(id) => DeleteToken(tokens, id)
  }

  // ---------------------------------------------------------------------
  // Registration

  /**
   * sendOtp: refuses a password confirmation mismatch and a registered
   * email, then issues a fifteen-minute ticket over the OTP, the email and
   * the bcrypt hash of the password. Nothing is stored.
   */
  function SendOtp(b: Binding, env: Env, db: Db, now: int, fullName: string, email: string,
                   password: string, confirmPassword: string, salt: int, draw: nat): (r: Step)
    requires db.WellFormed()
    ensures r.db == db
    ensures password != confirmPassword ==> r.reply == Failed(BadRequest, MsgConfirmMismatch)
    ensures password == confirmPassword && Registered(db.users, email) ==> r.reply == Failed(BadRequest, MsgAlreadyRegistered)
    ensures r.reply.OtpSent? <==> password == confirmPassword && !Registered(db.users, email) && Present(env.cfg.hashSecret)
    ensures r.reply.OtpSent? ==>
      && r.reply.otp == GetOtp(draw)
      && r.reply.info.fullName == fullName && r.reply.info.email == email
      && r.reply.info.hashOtp == IssueRegistration(b, env.cfg, env.crypto, r.reply.otp, email, HashData(env.crypto, password, salt), now).value
    ensures password == confirmPassword && !Registered(db.users, email) && !Present(env.cfg.hashSecret) ==>
      r.reply == Failed(ServerError, MsgHashSecretMissing)
  {
    if password != confirmPassword then Step(db, Failed(BadRequest, MsgConfirmMismatch))
    else if FindByEmail(db.users, email).Some? then Step(db, Failed(BadRequest, MsgAlreadyRegistered))
    else
      var hash := HashData(env.crypto, password, salt);
      var otp := GetOtp(draw);
      match IssueRegistration(b, env.cfg, env.crypto, otp, email, hash, now)
      case Err(e) => Step(db, Fail(e))
      case Ok(ticket) => Step(db, OtpSent(OtpInfo(fullName, email, ticket), otp))
  }

  /** The HMAC over what the client sent back matches the ticket's signature. */
  predicate SignatureMatches(b: Binding, env: Env, data: seq<string>, sig: string)
    requires |data| == 4 || |data| == 3
  {
    && Present(env.cfg.hashSecret)
    && env.crypto.hmacSha256(env.cfg.hashSecret.value, Bind(b, data)) == sig
  }

  /**
   * verifyOtp's checks, in order: a ticket of three `#`-fields, an email
   * not yet registered, an expiry not yet passed, and a signature over
   * `otp`, `email`, the expiry field and the hash field that matches. On
   * success the answer is the password hash the ticket carries.
   */
  function RedeemRegistration(b: Binding, env: Env, users: Table<User>, now: int,
                              email: string, otp: string, hashOtp: string): (r: Result<string>)
    requires users.Valid()
    ensures var f := Fields(hashOtp);
      && (|f| != 3 ==> r == Err(HttpError(BadRequest, MsgOtpInvalid)))
      && (|f| == 3 && Registered(users, email) ==> r == Err(HttpError(BadRequest, MsgAlreadyRegistered)))
      && (|f| == 3 && !Registered(users, email) && Expired(now, f[1]) ==> r == Err(HttpError(RequestTimeout, MsgOtpExpired)))
      && (|f| == 3 && !Registered(users, email) && !Expired(now, f[1]) && !Present(env.cfg.hashSecret) ==>
            r == Err(HttpError(ServerError, MsgHashSecretMissing)))
      && (r.Ok? <==> |f| == 3 && !Registered(users, email) && !Expired(now, f[1])
                     && SignatureMatches(b, env, [otp, email, f[1], f[2]], f[0]))
      && (r.Ok? ==> r.value == f[2])
    ensures r.Err? && r.error.status == BadRequest && r.error.message == MsgOtpInvalid ==>
      var f := Fields(hashOtp);
      |f| != 3 || !SignatureMatches(b, env, [otp, email, f[1], f[2]], f[0])
  {
    var f := Fields(hashOtp);
    if |f| != 3 then Err(HttpError(BadRequest, MsgOtpInvalid))
    else
      var (sig, expires, passwordHash) := (f[0], f[1], f[2]);
      if FindByEmail(users, email).Some? then Err(HttpError(BadRequest, MsgAlreadyRegistered))
      else if Expired(now, expires) then Err(HttpError(RequestTimeout, MsgOtpExpired))
      else match HashDataWithSecret(env.cfg, env.crypto, RegistrationData(b, otp, email, expires, passwordHash))
        case Err(e) => Err(e)
        case Ok(digest) =>
          if digest != sig then Err(HttpError(BadRequest, MsgOtpInvalid))
          else Ok(passwordHash)
  }

  /**
   * verifyOtp: on a redeemed ticket, save the user with the ticket's hash
   * and open a session for it; otherwise fail without writing.
   */
  function VerifyOtp(b: Binding, env: Env, db: Db, now: int, rev: Revision,
                     fullName: string, email: string, otp: string, hashOtp: string): (r: Step)
    requires db.WellFormed()
    ensures r.db.WellFormed()
    ensures var v := RedeemRegistration(b, env, db.users, now, email, otp, hashOtp);
      && (v.Err? ==> r == Step(db, Fail(v.error)))
      && (v.Ok? ==> exists uid :: Registers(env.cfg, db, r, uid, NewUser(fullName, email, v.value), now, rev))
  {
    match RedeemRegistration(b, env, db.users, now, email, otp, hashOtp)
    case Err(e) => Step(db, Fail(e))
    case Ok(passwordHash) =>
      var u := NewUser(fullName, email, passwordHash);
      var (users', uid) := db.users.Insert(u);
      var r := OpenSession(env.cfg, db.(users := users'), uid, u, now, rev);
      assert Registers(env.cfg, db, r, uid, u, now, rev);
      r
  }

  /**
   * `r` saved `u` under the fresh id `uid`, and then either opened a
   * session for it or failed with the 500 of a missing signing key.
   */
  ghost predicate Registers(cfg: Config, db: Db, r: Step, uid: int, u: User, now: int, rev: Revision)
  {
    && uid !in db.users.rows
    && r.db.users.rows == db.users.rows[uid := u]
    && var db1 := db.(users := r.db.users);
    && (r.reply.UserJson? <==> Present(cfg.privateKey) && Present(cfg.refreshSecret))
    && (r.reply.UserJson? ==> exists id :: StartsSession(cfg, db1, r, uid, u, now, rev, id))
    && (!r.reply.UserJson? ==> r.reply.Fail? && r.reply.error.status == ServerError)
    && (!Present(cfg.privateKey) ==> r.db == db1)
  }

  // ---------------------------------------------------------------------
  // The signed-in user

  /** self: the user the access token names, or 400. */
  function Self(db: Db, rev: Revision, auth: Jwt.Claims): (r: Step)
    ensures r.db == db
    ensures LookupId(db.users, auth.userId).None? ==> r.reply == Failed(BadRequest, MsgUserNotFound)
    ensures LookupId(db.users, auth.userId).Some? ==>
      var uid := IdOf(auth.userId).value;
      r.reply.UserJson? && r.reply.user == Some(View(uid, db.users.rows[uid], rev)) && r.reply.cookies.Unchanged?
  {
    match LookupId(db.users, auth.userId)
    case None => Step(db, Failed(BadRequest, MsgUserNotFound))
    case Some(uid) => Step(db, UserJson(Some(View(uid, db.users.rows[uid], rev)), Unchanged))
  }

  /**
   * logout (behind the refresh gate, so `auth` is the refresh token's
   * claims): delete the record the token names, clear both cookies.
   */
  function Logout(db: Db, auth: Jwt.Claims): (r: Step)
    ensures r.reply == UserJson(None, Cleared)
    ensures r.db == db.(tokens := r.db.tokens)
    ensures ClaimId(auth.tokenId).Some? ==> ClaimId(auth.tokenId).value !in r.db.tokens.rows
    ensures forall id :: id in r.db.tokens.rows ==> id in db.tokens.rows && r.db.tokens.rows[id] == db.tokens.rows[id]
    ensures forall id :: id in db.tokens.rows && Some(id) != ClaimId(auth.tokenId) ==> id in r.db.tokens.rows
    ensures db.WellFormed() ==> r.db.WellFormed()
  {
    Step(db.(tokens := Revoke(db.tokens, auth.tokenId)), UserJson(None, Cleared))
  }

  // ---------------------------------------------------------------------
  // Login and rotation

  /**
   * login: an unknown email and a wrong password fail identically; a
   * match opens a session for the user the email finds.
   */
  function Login(env: Env, db: Db, now: int, rev: Revision, email: string, password: string): (r: Step)
    requires db.WellFormed()
    ensures r.db.WellFormed()
    ensures r.db.users == db.users
    ensures !Registered(db.users, email) ==> r == Step(db, Failed(BadRequest, MsgCredentialsMismatch))
    ensures Registered(db.users, email) ==>
      var uid := FindByEmail(db.users, email).value;
      var u := db.users.rows[uid];
      && (!HashCompare(env.crypto, password, u.password) ==> r == Step(db, Failed(BadRequest, MsgCredentialsMismatch)))
      && (HashCompare(env.crypto, password, u.password) && Present(env.cfg.privateKey) && Present(env.cfg.refreshSecret) ==>
            exists id :: StartsSession(env.cfg, db, r, uid, u, now, rev, id))
    ensures r.reply.UserJson? <==> && Registered(db.users, email)
                                   && HashCompare(env.crypto, password, db.users.rows[FindByEmail(db.users, email).value].password)
                                   && Present(env.cfg.privateKey) && Present(env.cfg.refreshSecret)
  {
    match FindByEmail(db.users, email)
    case None => Step(db, Failed(BadRequest, MsgCredentialsMismatch))
    case Some(uid) =>
      var u := db.users.rows[uid];
      if !HashCompare(env.crypto, password, u.password) then Step(db, Failed(BadRequest, MsgCredentialsMismatch))
      else OpenSession(env.cfg, db, uid, u, now, rev)
  }

  /**
   * refresh (behind the refresh gate): find the token's user, delete the
   * record the token names, and open a new session for the user.
   */
  function Refresh(env: Env, db: Db, now: int, rev: Revision, auth: Jwt.Claims): (r: Step)
    requires db.WellFormed()
    ensures r.db.WellFormed()
    ensures r.db.users == db.users
    ensures LookupId(db.users, auth.userId).None? ==> r == Step(db, Failed(BadRequest, MsgTokenUserMissing))
    ensures LookupId(db.users, auth.userId).Some? ==>
      var uid := IdOf(auth.userId).value;
      var db1 := db.(tokens := Revoke(db.tokens, auth.tokenId));
      && (r.reply.UserJson? <==> Present(env.cfg.privateKey) && Present(env.cfg.refreshSecret))
      && (r.reply.UserJson? ==> exists id :: StartsSession(env.cfg, db1, r, uid, db.users.rows[uid], now, rev, id))
      && (!r.reply.UserJson? ==> r.reply.Fail? && r.reply.error.status == ServerError)
    ensures LookupId(db.users, auth.userId).Some? && SessionRecorded(db.tokens, auth) ==>
      ClaimId(auth.tokenId).value !in r.db.tokens.rows
  {
    match LookupId(db.users, auth.userId)
    case None => Step(db, Failed(BadRequest, MsgTokenUserMissing))
    case Some(uid) =>
      var db1 := db.(tokens := Revoke(db.tokens, auth.tokenId));
      OpenSession(env.cfg, db1, uid, db.users.rows[uid], now, rev)
  }

  // ---------------------------------------------------------------------
  // Password reset

  /**
   * forgetPassword: refuses an unregistered email, then issues a
   * ten-minute ticket over the OTP and the email. Nothing is stored.
   */
  function ForgetPassword(b: Binding, env: Env, db: Db, now: int, email: string, draw: nat): (r: Step)
    requires db.WellFormed()
    ensures r.db == db
    ensures !Registered(db.users, email) ==> r.reply == Failed(BadRequest, MsgNotRegistered)
    ensures r.reply.OtpSent? <==> Registered(db.users, email) && Present(env.cfg.hashSecret)
    ensures r.reply.OtpSent? ==>
      && r.reply.otp == GetOtp(draw)
      && r.reply.info.fullName == db.users.rows[FindByEmail(db.users, email).value].fullName
      && r.reply.info.email == email
      && r.reply.info.hashOtp == IssueReset(b, env.cfg, env.crypto, r.reply.otp, email, now).value
    ensures Registered(db.users, email) && !Present(env.cfg.hashSecret) ==> r.reply == Failed(ServerError, MsgHashSecretMissing)
  {
    match FindByEmail(db.users, email)
    case None => Step(db, Failed(BadRequest, MsgNotRegistered))
    case Some(uid) =>
      var otp := GetOtp(draw);
      match IssueReset(b, env.cfg, env.crypto, otp, email, now)
      case Err(e) => Step(db, Fail(e))
      case Ok(ticket) => Step(db, OtpSent(OtpInfo(db.users.rows[uid].fullName, email, ticket), otp))
  }

  /**
   * setPassword's checks, in order: the confirmation matches, the ticket
   * has two `#`-fields, the email is registered, the expiry has not
   * passed, and the signature over `otp`, `email` and the expiry field
   * matches. On success the answer is the id of the user the email finds.
   */
  function RedeemReset(b: Binding, env: Env, users: Table<User>, now: int, email: string, otp: string,
                       hashOtp: string, password: string, confirmPassword: string): (r: Result<int>)
    requires users.Valid()
    ensures var f := Fields(hashOtp);
      && (password != confirmPassword ==> r == Err(HttpError(BadRequest, MsgResetConfirmMismatch)))
      && (password == confirmPassword && |f| != 2 ==> r == Err(HttpError(BadRequest, MsgOtpInvalid)))
      && (password == confirmPassword && |f| == 2 && !Registered(users, email) ==> r == Err(HttpError(BadRequest, MsgNotRegistered)))
      && (password == confirmPassword && |f| == 2 && Registered(users, email) && Expired(now, f[1]) ==>
            r == Err(HttpError(RequestTimeout, MsgOtpExpired)))
      && (r.Ok? <==> password == confirmPassword && |f| == 2 && Registered(users, email) && !Expired(now, f[1])
                     && SignatureMatches(b, env, [otp, email, f[1]], f[0]))
      && (r.Ok? ==> r.value == FindByEmail(users, email).value)
  {
    if password != confirmPassword then Err(HttpError(BadRequest, MsgResetConfirmMismatch))
    else
      var f := Fields(hashOtp);
      if |f| != 2 then Err(HttpError(BadRequest, MsgOtpInvalid))
      else
        var (sig, expires) := (f[0], f[1]);
        match FindByEmail(users, email)
        case None => Err(HttpError(BadRequest, MsgNotRegistered))
        case Some(uid) =>
          if Expired(now, expires) then Err(HttpError(RequestTimeout, MsgOtpExpired))
          else match HashDataWithSecret(env.cfg, env.crypto, ResetData(b, otp, email, expires))
            case Err(e) => Err(e)
            case Ok(digest) =>
              if digest != sig then Err(HttpError(BadRequest, MsgOtpInvalid))
              else Ok(uid)
  }

  /**
   * setPassword: on a redeemed ticket, replace the user's hash with the
   * hash of the new password. Nothing else changes; in particular the
   * user's refresh-token records survive.
   */
  function SetPassword(b: Binding, env: Env, db: Db, now: int, rev: Revision, email: string, hashOtp: string,
                       otp: string, password: string, confirmPassword: string, salt: int): (r: Step)
    requires db.WellFormed()
    ensures r.db.WellFormed()
    ensures var v := RedeemReset(b, env, db.users, now, email, otp, hashOtp, password, confirmPassword);
      && (v.Err? ==> r == Step(db, Fail(v.error)))
      && (v.Ok? ==>
            var u' := db.users.rows[v.value].(password := HashData(env.crypto, password, salt));
            && r.db == db.(users := r.db.users)
            && r.db.users.rows == db.users.rows[v.value := u']
            && r.reply == UserJson(Some(View(v.value, u', rev)), Unchanged))
  {
    match RedeemReset(b, env, db.users, now, email, otp, hashOtp, password, confirmPassword)
    case Err(e) => Step(db, Fail(e))
    case Ok(uid) =>
      var u' := db.users.rows[uid].(password := HashData(env.crypto, password, salt));
      Step(db.(users := db.users.Put(uid, u')), UserJson(Some(View(uid, u', rev)), Unchanged))
  }

  // ---------------------------------------------------------------------
  // Routes: each handler behind its middleware

  /** `POST /login`: checkInvalidRefreshToken, then login. */
  function LoginRoute(env: Env, db: Db, now: int, rev: Revision, cookie: Option<Jwt.Token>,
                      email: string, password: string): (r: Step)
    requires db.WellFormed()
    ensures r.db.WellFormed()
    ensures cookie.Some? ==> r.db == db && r.reply.Fail?
    ensures cookie.None? ==> r == Login(env, db, now, rev, email, password)
  {
    match CheckInvalidRefreshToken(env.cfg, now, cookie)
    case Err(e) => Step(db, Fail(e))
    case Ok(_) => Login(env, db, now, rev, email, password)
  }

  /** `GET /refresh`: checkRefreshToken, then refresh with the token's claims. */
  function RefreshRoute(env: Env, db: Db, now: int, rev: Revision, cookie: Option<Jwt.Token>, storeFails: bool): (r: Step)
    requires db.WellFormed()
    ensures r.db.WellFormed()
    ensures var gate := CheckRefreshToken(env.cfg, db.tokens, now, cookie, storeFails);
      && (gate.Err? ==> r == Step(db, Fail(gate.error)))
      && (gate.Ok? ==> r == Refresh(env, db, now, rev, gate.value))
  {
    match CheckRefreshToken(env.cfg, db.tokens, now, cookie, storeFails)
    case Err(e) => Step(db, Fail(e))
    case Ok(claims) => Refresh(env, db, now, rev, claims)
  }

  /** `GET /logout`: (the access-token gate and) checkRefreshToken, then logout. */
  function LogoutRoute(cfg: Config, db: Db, now: int, cookie: Option<Jwt.Token>, storeFails: bool): (r: Step)
    requires db.WellFormed()
    ensures r.db.WellFormed()
    ensures var gate := CheckRefreshToken(cfg, db.tokens, now, cookie, storeFails);
      && (gate.Err? ==> r == Step(db, Fail(gate.error)))
      && (gate.Ok? ==> r.reply == UserJson(None, Cleared)
                       && ClaimId(gate.value.tokenId).value !in r.db.tokens.rows
                       && r.db == db.(tokens := r.db.tokens))
  {
    match CheckRefreshToken(cfg, db.tokens, now, cookie, storeFails)
    case Err(e) => Step(db, Fail(e))
    case Ok(claims) => Logout(db, claims)
  }
}

=== FILE: auth_properties.dfy ===
/**
 * Properties of the authentication flows that relate several requests:
 * the OTP round trips, what a tampered or re-targeted ticket achieves,
 * refresh-token rotation, logout, and what a reply discloses.
 */
module AuthProperties {
  import opened Wrappers
  import opened Http
  import opened Text
  import opened Credential
  import Jwt
  import opened Tables
  import opened Store
  import opened Replies
  import opened Tokens
  import opened OtpTicket
  import opened Gates
  import opened Auth

  // ---------------------------------------------------------------------
  // Registration

  /**
   * A ticket from sendOtp, echoed back to verifyOtp with its OTP and email
   * within fifteen minutes, registers the user with the bcrypt hash of the
   * password sendOtp was given.
   */
  lemma RegistrationRoundTrip(b: Binding, env: Env, db: Db, t: int, later: int, rev: Revision,
                              fullName: string, email: string, password: string, salt: int, draw: nat)
    requires db.WellFormed() && TicketSafe(env.crypto) && Present(env.cfg.hashSecret)
    requires !Registered(db.users, email)
    requires later <= t + RegistrationTtl
    ensures var sent := SendOtp(b, env, db, t, fullName, email, password, password, salt, draw);
      && sent.reply.OtpSent?
      && RedeemRegistration(b, env, sent.db.users, later, email, IntToString(sent.reply.otp), sent.reply.info.hashOtp)
           == Ok(HashData(env.crypto, password, salt))
      && exists uid :: Registers(env.cfg, db,
           VerifyOtp(b, env, sent.db, later, rev, fullName, email, IntToString(sent.reply.otp), sent.reply.info.hashOtp),
           uid, NewUser(fullName, email, HashData(env.crypto, password, salt)), later, rev)
  {
    var otp := GetOtp(draw);
    var hash := HashData(env.crypto, password, salt);
    RegistrationTicketReadsBack(b, env.cfg, env.crypto, otp, email, salt, password, t, later);
    var sent := SendOtp(b, env, db, t, fullName, email, password, password, salt, draw);
    assert sent.reply.OtpSent?;
    var f := Fields(sent.reply.info.hashOtp);
    assert f[2] == hash;
    assert !Expired(later, f[1]);
    assert SignatureMatches(b, env, [IntToString(otp), email, f[1], f[2]], f[0]);
    assert RedeemRegistration(b, env, sent.db.users, later, email, IntToString(sent.reply.otp), sent.reply.info.hashOtp) == Ok(hash);
    var v := VerifyOtp(b, env, sent.db, later, rev, fullName, email, IntToString(sent.reply.otp), sent.reply.info.hashOtp);
    assert exists uid :: Registers(env.cfg, db, v, uid, NewUser(fullName, email, hash), later, rev);
  }

  /**
   * After a registration that opened a session, the access cookie's claims
   * name the new user for self, and the password logs in.
   */
  lemma RegisteredAccountIsUsable(env: Env, db: Db, r: Step, uid: int, u: User, now: int, rev: Revision,
                                  later: int, password: string, salt: int)
    requires db.WellFormed() && r.db.WellFormed() && BcryptAcceptsItsPlaintext(env.crypto)
    requires Registers(env.cfg, db, r, uid, u, now, rev) && r.reply.UserJson?
    requires !Registered(db.users, u.email) && u.password == HashData(env.crypto, password, salt)
    ensures Self(r.db, rev, r.reply.cookies.access.claims).reply == UserJson(Some(View(uid, u, rev)), Unchanged)
    ensures Login(env, r.db, later, rev, u.email, password).reply.UserJson?
    ensures FindByEmail(r.db.users, u.email) == Some(uid)
  {
    var db1 := db.(users := r.db.users);
    var id :| StartsSession(env.cfg, db1, r, uid, u, now, rev, id);
    assert r.db.users == db1.users;
    assert uid in r.db.users.rows && r.db.users.rows[uid] == u;
    assert FindByEmail(r.db.users, u.email).Some?;
  }

  /** The OTP is part of what is signed, under either binding. */
  lemma {:induction false} OtpIsBound(b: Binding, o1: string, o2: string, email: string, expires: string, passwordHash: string)
    requires o1 != o2
    ensures RegistrationData(b, o1, email, expires, passwordHash) != RegistrationData(b, o2, email, expires, passwordHash)
  {
    match b
    case Framed => FramedDataBindsEveryField(o1, email, expires, passwordHash, o2, email, expires, passwordHash);
    case Dotted =>
      var rest := Join([email, expires, passwordHash], '.');
      assert [o1, email, expires, passwordHash][1..] == [email, expires, passwordHash];
      assert [o2, email, expires, passwordHash][1..] == [email, expires, passwordHash];
      var x1, x2 := o1 + ("." + rest), o2 + ("." + rest);
      assert RegistrationData(b, o1, email, expires, passwordHash) == x1;
      assert RegistrationData(b, o2, email, expires, passwordHash) == x2;
      PrefixCancels(o1, o2, "." + rest);
  }

  lemma PrefixCancels(a: string, c: string, x: string)
    ensures a + x == c + x ==> a == c
  {
    if a + x == c + x {
      assert |a| == |c|;
      assert a == (a + x)[..|a|];
      assert c == (c + x)[..|c|];
    }
  }

  /** Any other OTP than the one drawn is refused with 400, and nothing is written. */
  lemma TamperedOtpIsRejected(b: Binding, env: Env, db: Db, t: int, later: int, rev: Revision,
                              fullName: string, email: string, password: string, salt: int, draw: nat, otp': string)
    requires db.WellFormed() && TicketSafe(env.crypto) && HmacCollisionFree(env.crypto) && Present(env.cfg.hashSecret)
    requires !Registered(db.users, email) && later <= t + RegistrationTtl
    requires otp' != IntToString(GetOtp(draw))
    ensures var sent := SendOtp(b, env, db, t, fullName, email, password, password, salt, draw);
      VerifyOtp(b, env, sent.db, later, rev, fullName, email, otp', sent.reply.info.hashOtp) == Step(db, Failed(BadRequest, MsgOtpInvalid))
  {
    var otp := GetOtp(draw);
    var hash := HashData(env.crypto, password, salt);
    var expires := IntToString(t + RegistrationTtl);
    RegistrationTicketReadsBack(b, env.cfg, env.crypto, otp, email, salt, password, t, later);
    OtpIsBound(b, otp', IntToString(otp), email, expires, hash);
  }

  // ---------------------------------------------------------------------
  // The ticket-binding finding: as written, and corrected

  /**
   * As written, a registration ticket issued for `a.s` is redeemed for the
   * email `a` by moving `s` into the expiry field. When `s` has a
   * character that is not part of a number the moved expiry is NaN, so
   * `Date.now() > +expires` is false at every `later`: the ticket never
   * expires.
   */
  lemma ForeignEmailRegistration(env: Env, db: Db, t: int, later: int, fullName: string,
                                 a: string, s: string, i: int, password: string, salt: int, draw: nat)
    requires db.WellFormed() && TicketSafe(env.crypto) && Present(env.cfg.hashSecret)
    requires !Registered(db.users, a + "." + s) && !Registered(db.users, a)
    requires '#' !in s && 0 <= i < |s| && !IsDigit(s[i]) && s[i] !in ".+-"
    ensures var sent := SendOtp(Dotted, env, db, t, fullName, a + "." + s, password, password, salt, draw);
      && sent.reply.OtpSent?
      && var f := Fields(sent.reply.info.hashOtp);
      && |f| == 3
      && RedeemRegistration(Dotted, env, db.users, later, a, IntToString(sent.reply.otp),
                            RegistrationTicket(f[0], s + "." + f[1], f[2])) == Ok(HashData(env.crypto, password, salt))
  {
    var otp := GetOtp(draw);
    var hash := HashData(env.crypto, password, salt);
    var expires := IntToString(t + RegistrationTtl);
    RegistrationTicketReadsBack(Dotted, env.cfg, env.crypto, otp, a + "." + s, salt, password, t, later);
    var sig := env.crypto.hmacSha256(env.cfg.hashSecret.value, RegistrationData(Dotted, IntToString(otp), a + "." + s, expires, hash));
    var moved := s + "." + expires;
    IntToStringAlphabet(t + RegistrationTtl, '#');
    assert '#' !in moved;
    assert Separable([sig, moved, hash], '#');
    SplitJoin([sig, moved, hash], '#');
    assert moved[i] == s[i];
    StrayCharacterIsNaN(moved, i);
    DottedDataShift(IntToString(otp), a, s, expires, hash);
  }

  /**
   * Corrected: with the framed binding, whatever email, OTP and ticket are
   * sent back with an issued signature, redemption succeeds only for the
   * issued email, OTP, expiry and hash, and never after the issued expiry.
   */
  lemma FramedRegistrationTicketBindsItsEmail(env: Env, db: Db, t: int, later: int, fullName: string,
                                              email: string, password: string, salt: int, draw: nat,
                                              email': string, otp': string, ticket': string)
    requires db.WellFormed() && TicketSafe(env.crypto) && HmacCollisionFree(env.crypto) && Present(env.cfg.hashSecret)
    requires !Registered(db.users, email)
    requires Fields(ticket')[0] == Fields(SendOtp(Framed, env, db, t, fullName, email, password, password, salt, draw).reply.info.hashOtp)[0]
    ensures var sent := SendOtp(Framed, env, db, t, fullName, email, password, password, salt, draw);
      RedeemRegistration(Framed, env, db.users, later, email', otp', ticket').Ok? ==>
        && email' == email
        && otp' == IntToString(sent.reply.otp)
        && Fields(ticket') == Fields(sent.reply.info.hashOtp)
        && later <= t + RegistrationTtl
  {
    var otp := GetOtp(draw);
    var hash := HashData(env.crypto, password, salt);
    var expires := IntToString(t + RegistrationTtl);
    RegistrationTicketReadsBack(Framed, env.cfg, env.crypto, otp, email, salt, password, t, later);
    var f' := Fields(ticket');
    if RedeemRegistration(Framed, env, db.users, later, email', otp', ticket').Ok? {
      FramedDataBindsEveryField(otp', email', f'[1], f'[2], IntToString(otp), email, expires, hash);
      assert f' == [f'[0], f'[1], f'[2]];
    }
  }

  /**
   * As written, a reset ticket issued to the holder of `a.s` resets the
   * password of the account `a`, at any time.
   */
  lemma ForeignEmailPasswordReset(env: Env, db: Db, t: int, later: int, rev: Revision,
                                  a: string, s: string, i: int, newPassword: string, salt: int, draw: nat)
    requires db.WellFormed() && TicketSafe(env.crypto) && Present(env.cfg.hashSecret)
    requires Registered(db.users, a + "." + s) && Registered(db.users, a)
    requires '#' !in s && 0 <= i < |s| && !IsDigit(s[i]) && s[i] !in ".+-"
    ensures var sent := ForgetPassword(Dotted, env, db, t, a + "." + s, draw);
      && sent.reply.OtpSent?
      && var f := Fields(sent.reply.info.hashOtp);
      && |f| == 2
      && var r := SetPassword(Dotted, env, db, later, rev, a, ResetTicket(f[0], s + "." + f[1]),
                              IntToString(sent.reply.otp), newPassword, newPassword, salt);
      && var victim := FindByEmail(db.users, a).value;
      && r.db.users.rows[victim] == db.users.rows[victim].(password := HashData(env.crypto, newPassword, salt))
  {
    var otp := GetOtp(draw);
    var expires := IntToString(t + ResetTtl);
    ResetTicketReadsBack(Dotted, env.cfg, env.crypto, otp, a + "." + s, t, later);
    var sig := env.crypto.hmacSha256(env.cfg.hashSecret.value, ResetData(Dotted, IntToString(otp), a + "." + s, expires));
    var moved := s + "." + expires;
    IntToStringAlphabet(t + ResetTtl, '#');
    assert '#' !in moved;
    assert Separable([sig, moved], '#');
    SplitJoin([sig, moved], '#');
    assert moved[i] == s[i];
    StrayCharacterIsNaN(moved, i);
    DottedDataShift(IntToString(otp), a, s, expires, "");
  }

  /**
   * Corrected: with the framed binding, an issued reset signature redeems
   * only for the email it was issued to, with its OTP and expiry, and
   * never after that expiry.
   */
  lemma FramedResetTicketBindsItsEmail(env: Env, db: Db, t: int, later: int, email: string, draw: nat,
                                       email': string, otp': string, ticket': string, password: string, confirm: string)
    requires db.WellFormed() && TicketSafe(env.crypto) && HmacCollisionFree(env.crypto) && Present(env.cfg.hashSecret)
    requires Registered(db.users, email)
    requires Fields(ticket')[0] == Fields(ForgetPassword(Framed, env, db, t, email, draw).reply.info.hashOtp)[0]
    ensures var sent := ForgetPassword(Framed, env, db, t, email, draw);
      RedeemReset(Framed, env, db.users, later, email', otp', ticket', password, confirm).Ok? ==>
        && email' == email
        && otp' == IntToString(sent.reply.otp)
        && Fields(ticket') == Fields(sent.reply.info.hashOtp)
        && later <= t + ResetTtl
  {
    var otp := GetOtp(draw);
    var expires := IntToString(t + ResetTtl);
    ResetTicketReadsBack(Framed, env.cfg, env.crypto, otp, email, t, later);
    var f' := Fields(ticket');
    if RedeemReset(Framed, env, db.users, later, email', otp', ticket', password, confirm).Ok? {
      FramedDataBindsEveryField(otp', email', f'[1], "", IntToString(otp), email, expires, "");
      assert f' == [f'[0], f'[1]];
    }
  }

  // ---------------------------------------------------------------------
  // Password reset

  /**
   * A reset ticket echoed back within ten minutes replaces the account's
   * hash with the hash of the new password, leaves its refresh-token
   * records in place, and (bcrypt being sound) the new password matches.
   */
  lemma PasswordResetRoundTrip(b: Binding, env: Env, db: Db, t: int, later: int, rev: Revision,
                               email: string, newPassword: string, salt: int, draw: nat)
    requires db.WellFormed() && TicketSafe(env.crypto) && Present(env.cfg.hashSecret)
    requires Registered(db.users, email) && later <= t + ResetTtl
    ensures var sent := ForgetPassword(b, env, db, t, email, draw);
      && sent.reply.OtpSent?
      && var r := SetPassword(b, env, db, later, rev, email, sent.reply.info.hashOtp,
                              IntToString(sent.reply.otp), newPassword, newPassword, salt);
      && var uid := FindByEmail(db.users, email).value;
      && r.db.users.rows[uid].password == HashData(env.crypto, newPassword, salt)
      && r.db.tokens == db.tokens
      && (BcryptAcceptsItsPlaintext(env.crypto) ==> HashCompare(env.crypto, newPassword, r.db.users.rows[uid].password))
  {
    var otp := GetOtp(draw);
    ResetTicketReadsBack(b, env.cfg, env.crypto, otp, email, t, later);
  }

  // ---------------------------------------------------------------------
  // Sessions

  /**
   * Refresh rotates: once a refresh succeeds, the token it was given is
   * refused from then on, and the token it issued is accepted until it
   * expires.
   */
  lemma RotationRetiresThePresentedToken(env: Env, db: Db, now: int, later: int, rev: Revision, t: Jwt.Token)
    requires db.WellFormed()
    requires RefreshRoute(env, db, now, rev, Some(t), false).reply.UserJson?
    ensures var r := RefreshRoute(env, db, now, rev, Some(t), false);
      && RefreshRoute(env, r.db, later, rev, Some(t), false).db == r.db
      && RefreshRoute(env, r.db, later, rev, Some(t), false).reply.Fail?
      && RefreshRoute(env, r.db, later, rev, Some(t), false).reply.error.status == Unauthorized
      && (later / 1000 < now / 1000 + RefreshLifetime ==>
            RefreshRoute(env, r.db, later, rev, Some(r.reply.cookies.refresh), false).reply.UserJson?)
  {
    var r := RefreshRoute(env, db, now, rev, Some(t), false);
    var claims := CheckRefreshToken(env.cfg, db.tokens, now, Some(t), false).value;
    assert SessionRecorded(db.tokens, claims);
    var uid := IdOf(claims.userId).value;
    var db1 := db.(tokens := Revoke(db.tokens, claims.tokenId));
    var id :| StartsSession(env.cfg, db1, r, uid, db.users.rows[uid], now, rev, id);
    assert !SessionRecorded(r.db.tokens, claims);
    var issued := r.reply.cookies.refresh;
    NumberOfIntToString(id);
    assert ClaimId(issued.claims.tokenId) == Some(id);
    assert r.db.tokens.rows[id] == TokenRecord(uid, now + MsInYear);
    assert SessionRecorded(r.db.tokens, issued.claims);
  }

  /** After logout the refresh token it was given is refused by refresh and by logout. */
  lemma LogoutRetiresTheSession(env: Env, db: Db, now: int, later: int, rev: Revision, t: Jwt.Token)
    requires db.WellFormed()
    requires LogoutRoute(env.cfg, db, now, Some(t), false).reply.UserJson?
    ensures var r := LogoutRoute(env.cfg, db, now, Some(t), false);
      && RefreshRoute(env, r.db, later, rev, Some(t), false) == Step(r.db, RefreshRoute(env, r.db, later, rev, Some(t), false).reply)
      && RefreshRoute(env, r.db, later, rev, Some(t), false).reply.Fail?
      && RefreshRoute(env, r.db, later, rev, Some(t), false).reply.error.status == Unauthorized
      && LogoutRoute(env.cfg, r.db, later, Some(t), false).reply.Fail?
  {
    var r := LogoutRoute(env.cfg, db, now, Some(t), false);
    var claims := CheckRefreshToken(env.cfg, db.tokens, now, Some(t), false).value;
    assert !SessionRecorded(r.db.tokens, claims);
  }

  /**
   * The login guard never looks at the records: a refresh cookie whose
   * session was logged out still keeps its holder from logging in until
   * the token expires.
   */
  lemma LoggedOutCookieStillBlocksLogin(env: Env, db: Db, now: int, later: int, rev: Revision, t: Jwt.Token,
                                        email: string, password: string)
    requires db.WellFormed()
    requires LogoutRoute(env.cfg, db, now, Some(t), false).reply.UserJson?
    requires later / 1000 < t.expiresAt
    ensures var r := LogoutRoute(env.cfg, db, now, Some(t), false);
      LoginRoute(env, r.db, later, rev, Some(t), email, password) == Step(r.db, Failed(BadRequest, MsgAlreadyLoggedIn))
  {
    assert Present(env.cfg.refreshSecret);
  }

  /** Both login failures produce the same reply and leave the store alone. */
  lemma LoginDoesNotRevealWhichCheckFailed(env: Env, db: Db, now: int, rev: Revision,
                                           unknown: string, known: string, wrong: string)
    requires db.WellFormed()
    requires !Registered(db.users, unknown) && Registered(db.users, known)
    requires !HashCompare(env.crypto, wrong, db.users.rows[FindByEmail(db.users, known).value].password)
    ensures Login(env, db, now, rev, unknown, wrong) == Login(env, db, now, rev, known, wrong)
  {
  }

  /**
   * The earlier revision replies with `password: null`; the current one
   * sends the stored bcrypt hash along with the user.
   */
  lemma OnlyTheCurrentRevisionSendsTheHash(env: Env, db: Db, now: int, email: string, password: string)
    requires db.WellFormed()
    ensures var e := Login(env, db, now, Earlier, email, password);
      e.reply.UserJson? ==> e.reply.user.Some? && e.reply.user.value.password.None?
    ensures var c := Login(env, db, now, Current, email, password);
      c.reply.UserJson? ==>
        c.reply.user == Some(View(FindByEmail(db.users, email).value, db.users.rows[FindByEmail(db.users, email).value], Current))
        && c.reply.user.value.password == Some(db.users.rows[FindByEmail(db.users, email).value].password)
  {
    var e := Login(env, db, now, Earlier, email, password);
    var c := Login(env, db, now, Current, email, password);
    if e.reply.UserJson? {
      var uid := FindByEmail(db.users, email).value;
      var id :| StartsSession(env.cfg, db, e, uid, db.users.rows[uid], now, Earlier, id);
    }
    if c.reply.UserJson? {
      var uid := FindByEmail(db.users, email).value;
      var id :| StartsSession(env.cfg, db, c, uid, db.users.rows[uid], now, Current, id);
    }
  }
}

=== FILE: credential.dfy ===
/**
 * Credential primitives (services/Credential.ts and its earlier twin
 * services/credential.services.ts): password hashing with bcrypt, the
 * keyed hash that signs OTP tickets, and the OTP draw.
 *
 * The cryptography itself is not modelled. bcrypt and HMAC-SHA256 are
 * uninterpreted functions carried in a `Crypto` value, and the facts the
 * core relies on are stated as predicates over it; lemmas that need a fact
 * require it explicitly.
 */
module Credential {
  import opened Wrappers
  import opened Http
  import Utf8

  /** Process-wide secrets read from the environment; `None` when unset. */
  datatype Config = Config(hashSecret: Option<string>, privateKey: Option<string>, refreshSecret: Option<string>)

  /** JavaScript truthiness of an environment variable: set and non-empty. */
  predicate Present(secret: Option<string>)
  {
    secret.Some? && secret.value != ""
  }

  /**
   * The primitives the core calls but does not implement:
   * `hmacSha256(key, message)` is the hex digest of HMAC-SHA256 (RFC 2104),
   * `bcryptHash(plain, salt)` is bcrypt at cost 10 with the salt it drew, and
   * `bcryptCompare(plain, hash)` is bcrypt's verification.
   */
  datatype Crypto = Crypto(
    hmacSha256: (string, string) -> string,
    bcryptHash: (string, int) -> string,
    bcryptCompare: (string, string) -> bool)

  /** Everything a request handler is configured with. */
  datatype Env = Env(cfg: Config, crypto: Crypto)

  /** The most key bytes bcrypt's key schedule reads. */
  const BcryptKeyMax := 72

  /**
   * The key bcrypt's `$2b$` scheme takes from a password: its UTF-8 bytes
   * and a terminating zero, cut after 72 bytes.
   */
  function BcryptKey(p: string): (k: seq<int>)
    ensures |k| <= BcryptKeyMax
  {
    var z := Utf8.Encode(p) + [0];
    if |z| <= BcryptKeyMax then z else z[..BcryptKeyMax]
  }

  /**
   * The idealisation that bcrypt is a collision-free function of its key:
   * a hash accepts exactly the plaintexts whose key is the hashed one's.
   */
  ghost predicate BcryptSound(c: Crypto)
  {
    forall p, q, salt :: c.bcryptCompare(q, c.bcryptHash(p, salt)) <==> BcryptKey(q) == BcryptKey(p)
  }

  /** The part of `BcryptSound` a round trip needs: a hash accepts its own plaintext. */
  ghost predicate BcryptAcceptsItsPlaintext(c: Crypto)
  {
    forall p, salt :: c.bcryptCompare(p, c.bcryptHash(p, salt))
  }

  /** Neither a bcrypt hash nor a hex digest contains the ticket separator `#`. */
  ghost predicate TicketSafe(c: Crypto)
  {
    && (forall p, salt :: '#' !in c.bcryptHash(p, salt))
    && (forall k, m :: '#' !in c.hmacSha256(k, m))
  }

  /** The idealisation that HMAC under one key never collides. */
  ghost predicate HmacCollisionFree(c: Crypto)
  {
    forall k, m1, m2 :: m1 != m2 ==> c.hmacSha256(k, m1) != c.hmacSha256(k, m2)
  }

  /** `hashData(data)`: bcrypt with the salt this call drew. */
  function HashData(c: Crypto, plain: string, salt: int): string
  {
    c.bcryptHash(plain, salt)
  }

  /** `hashCompare(data, hash)`. */
  function HashCompare(c: Crypto, plain: string, hash: string): bool
  {
    c.bcryptCompare(plain, hash)
  }

  const MsgHashSecretMissing := "Hash secret is not found!"

  /**
   * `hashDataWithSecret(data)`: the HMAC-SHA256 hex digest of `data` under
   * HASH_SECRET, or a 500 error when the secret is unset or empty.
   */
  function HashDataWithSecret(cfg: Config, c: Crypto, data: string): (r: Result<string>)
    ensures r.Err? <==> !Present(cfg.hashSecret)
    ensures r.Err? ==> r.error == HttpError(ServerError, MsgHashSecretMissing)
    ensures r.Ok? ==> r.value == c.hmacSha256(cfg.hashSecret.value, data)
  {
    if Present(cfg.hashSecret) then Ok(c.hmacSha256(cfg.hashSecret.value, data))
    else Err(HttpError(ServerError, MsgHashSecretMissing))
  }

  /** `hashCompare(q, hashData(p))` holds exactly when `q` and `p` give bcrypt the same key. */
  lemma HashCompareComparesKeys(c: Crypto, p: string, q: string, salt: int)
    requires BcryptSound(c)
    ensures HashCompare(c, q, HashData(c, p, salt)) <==> BcryptKey(q) == BcryptKey(p)
    ensures HashCompare(c, p, HashData(c, p, salt))
  {
  }

  /**
   * A password whose key, terminator included, stays under 72 bytes is
   * accepted by its hash and refused for every other plaintext.
   */
  lemma HashCompareAcceptsExactlyTheHashedPlaintext(c: Crypto, p: string, q: string, salt: int)
    requires BcryptSound(c)
    requires |Utf8.Encode(p)| + 1 < BcryptKeyMax
    ensures HashCompare(c, q, HashData(c, p, salt)) <==> q == p
  {
    var ep, eq := Utf8.Encode(p), Utf8.Encode(q);
    if BcryptKey(q) == BcryptKey(p) {
      assert |eq| + 1 <= BcryptKeyMax;
      assert eq == (eq + [0])[..|eq|] && ep == (ep + [0])[..|ep|];
      Utf8.EncodeInjective(p, q);
    }
  }

  /**
   * Past 72 bytes the rest of a password is ignored: any two plaintexts
   * that share a prefix of 72 characters or more are accepted by each
   * other's hash.
   */
  lemma LongPasswordsShareTheirHash(c: Crypto, s: string, t1: string, t2: string, salt: int)
    requires BcryptSound(c)
    requires |s| >= BcryptKeyMax
    ensures HashCompare(c, s + t1, HashData(c, s + t2, salt))
  {
    Utf8.EncodeAppend(s, t1);
    Utf8.EncodeAppend(s, t2);
    var e, e1, e2 := Utf8.Encode(s), Utf8.Encode(t1), Utf8.Encode(t2);
    assert |e| >= BcryptKeyMax;
    assert BcryptKey(s + t1) == (e + e1 + [0])[..BcryptKeyMax] == e[..BcryptKeyMax];
    assert BcryptKey(s + t2) == (e + e2 + [0])[..BcryptKeyMax] == e[..BcryptKeyMax];
  }

  /** For instance, 72 `a`s then `1` logs in where 72 `a`s then `2` was hashed. */
  lemma SeventyThirdCharacterIsIgnored(c: Crypto, salt: int)
    requires BcryptSound(c)
    ensures var a72 := seq(72, _ => 'a');
      && a72 + "1" != a72 + "2"
      && HashCompare(c, a72 + "1", HashData(c, a72 + "2", salt))
  {
    var a72 := seq(72, _ => 'a');
    assert (a72 + "1")[72] == '1' && (a72 + "2")[72] == '2';
    LongPasswordsShareTheirHash(c, a72, "1", "2", salt);
  }

  /**
   * `crypto.randomInt(min, max)`: a value in [min, max), the upper bound
   * excluded; `draw` stands for the random source.
   */
  function RandomInt(min: int, max: int, draw: nat): (r: int)
    requires min < max
    ensures min <= r < max
  {
    min + draw % (max - min)
  }

  /** `getOtp()` / `generateOtp()`: `crypto.randomInt(1000, 9999)`. */
  function GetOtp(draw: nat): (otp: int)
    ensures 1000 <= otp <= 9998
  {
    RandomInt(1000, 9999, draw)
  }

  /** Every code in [1000, 9998] can be drawn, and 9999 never is. */
  lemma OtpRangeIsExact(v: int)
    ensures (exists draw: nat :: GetOtp(draw) == v) <==> 1000 <= v <= 9998
  {
    if 1000 <= v <= 9998 {
      var draw: nat := v - 1000;
      assert GetOtp(draw) == v;
    }
  }
}

=== FILE: gates.dfy ===
/**
 * The middleware in front of the session handlers: the refresh-token gate
 * (express-jwt with a revocation lookup), the guard that keeps a client
 * with a refresh cookie away from login, and the role check.
 */
module Gates {
  import opened Wrappers
  import opened Http
  import opened Text
  import opened Credential
  import opened Jwt
  import opened Tables
  import opened Store
  import opened Tokens

  const MsgNoToken := "No authorization token was found"
  const MsgRevoked := "The token has been revoked."
  const MsgAlreadyLoggedIn := "User already login!"
  const MsgInternal := "Internal Server Error!"
  const MsgNoPermission := "You don't have enough permissions"

  /** `Number(field)` as a row id; an absent claim is `undefined`, hence NaN. */
  function ClaimId(field: Option<string>): (id: Option<int>)
    ensures field.None? ==> id.None?
  {
    match field
    case None => None
    case Some(s) => IdOf(s)
  }

  /**
   * The revocation lookup finds a row: a record with id `tokenId` whose
   * owner has id `userId`. The record's `expiresAt` plays no part.
   */
  predicate SessionRecorded(tokens: Table<TokenRecord>, claims: Claims)
  {
    && ClaimId(claims.tokenId).Some?
    && IdOf(claims.userId).Some?
    && ClaimId(claims.tokenId).value in tokens.rows
    && tokens.rows[ClaimId(claims.tokenId).value].userId == IdOf(claims.userId).value
  }

  /**
   * `isRevoked(req, token)`: revoked without a decoded token, when the
   * lookup throws (`storeFails`), and when no record matches.
   */
  function IsRevoked(tokens: Table<TokenRecord>, decoded: Option<Claims>, storeFails: bool): (revoked: bool)
    ensures !revoked <==> decoded.Some? && !storeFails && SessionRecorded(tokens, decoded.value)
  {
    if decoded.None? then true
    else if storeFails then true
    else !SessionRecorded(tokens, decoded.value)
  }

  /** Only the ids of the records matter to the gate, never their expiry dates. */
  lemma RecordExpiryIsNeverConsulted(tokens: Table<TokenRecord>, tokens': Table<TokenRecord>, decoded: Option<Claims>, storeFails: bool)
    requires tokens.rows.Keys == tokens'.rows.Keys
    requires forall id :: id in tokens.rows ==> tokens.rows[id].userId == tokens'.rows[id].userId
    ensures IsRevoked(tokens, decoded, storeFails) == IsRevoked(tokens', decoded, storeFails)
  {
  }

  /**
   * checkRefreshToken: the `refreshToken` cookie must be present, verify
   * as HS256 under `REFRESH_TOKEN_SECRET ?? ""`, and still have its
   * record; every refusal is a 401. On success `req.auth` is the token's
   * claims.
   */
  function CheckRefreshToken(cfg: Config, tokens: Table<TokenRecord>, now: int, cookie: Option<Token>, storeFails: bool): (r: Result<Claims>)
    ensures r.Ok? <==> && cookie.Some?
                       && Verify(cookie.value, cfg.refreshSecret.GetOr(""), now).Ok?
                       && !storeFails
                       && SessionRecorded(tokens, cookie.value.claims)
    ensures r.Ok? ==> r.value == cookie.value.claims
    ensures r.Err? ==> r.error.status == Unauthorized
    ensures cookie.None? ==> r == Err(HttpError(Unauthorized, MsgNoToken))
  {
    match cookie
    case None => Err(HttpError(Unauthorized, MsgNoToken))
    case Some(t) =>
      match Verify(t, cfg.refreshSecret.GetOr(""), now)
      case Err(e) => Err(e)
      case Ok(claims) =>
        if IsRevoked(tokens, Some(claims), storeFails) then Err(HttpError(Unauthorized, MsgRevoked))
        else Ok(claims)
  }

  /** The gate accepts a well-signed, unexpired token exactly while its record exists. */
  lemma GateFollowsTheRecord(cfg: Config, tokens: Table<TokenRecord>, now: int, t: Token)
    requires Present(cfg.refreshSecret)
    requires t.alg == HS256 && t.signingKey == cfg.refreshSecret.value && now / 1000 < t.expiresAt
    ensures CheckRefreshToken(cfg, tokens, now, Some(t), false).Ok? <==> SessionRecorded(tokens, t.claims)
    ensures !SessionRecorded(tokens, t.claims) ==> CheckRefreshToken(cfg, tokens, now, Some(t), false) == Err(HttpError(Unauthorized, MsgRevoked))
  {
  }

  /**
   * checkInvalidRefreshToken: no cookie lets the request through; a cookie
   * that verifies is refused with 400; one that fails to verify (expired,
   * forged, or no secret configured) is a 500. The token store is never
   * consulted.
   */
  function CheckInvalidRefreshToken(cfg: Config, now: int, cookie: Option<Token>): (r: Result<()>)
    ensures cookie.None? ==> r.Ok?
    ensures cookie.Some? && VerifyRefreshToken(cfg, cookie.value, now).Ok? ==> r == Err(HttpError(BadRequest, MsgAlreadyLoggedIn))
    ensures cookie.Some? && VerifyRefreshToken(cfg, cookie.value, now).Err? ==> r == Err(HttpError(ServerError, MsgInternal))
  {
    match cookie
    case None => Ok(())
    case Some(t) =>
      match VerifyRefreshToken(cfg, t, now)
      case Ok(_) => Err(HttpError(BadRequest, MsgAlreadyLoggedIn))
      case Err(_) => Err(HttpError(ServerError, MsgInternal))
  }

  /** A client carrying any refresh cookie at all never reaches login. */
  lemma AnyCookieBlocksLogin(cfg: Config, now: int, t: Token)
    ensures CheckInvalidRefreshToken(cfg, now, Some(t)).Err?
  {
  }

  /** `hasPermission(roles)`: the token's role must be one of `roles`, else 403. */
  function HasPermission(roles: seq<string>, claims: Claims): (r: Result<()>)
    ensures r.Ok? <==> exists i :: 0 <= i < |roles| && roles[i] == claims.role
    ensures r.Err? ==> r.error == HttpError(Forbidden, MsgNoPermission)
  {
    if claims.role in roles then Ok(()) else Err(HttpError(Forbidden, MsgNoPermission))
  }

  /**
   * Only the role is consulted: claims that agree on the role get the same
   * verdict whatever user and token they name, and a role admitted by a
   * list is admitted by any longer list.
   */
  lemma PermissionDependsOnlyOnTheRole(roles: seq<string>, more: seq<string>, a: Claims, b: Claims)
    requires a.role == b.role
    ensures HasPermission(roles, a) == HasPermission(roles, b)
    ensures HasPermission(roles, a).Ok? ==> HasPermission(roles + more, b).Ok?
  {
    if HasPermission(roles, a).Ok? {
      var i :| 0 <= i < |roles| && roles[i] == a.role;
      assert (roles + more)[i] == b.role;
    }
  }
}

=== FILE: http.dfy ===
/**
 * The outcome vocabulary shared by every handler: an HTTP error (status code
 * and message, as `createHttpError` builds it), a result that is either a
 * value or such an error, and the controller revision a handler follows.
 */
module Http {

  datatype HttpError = HttpError(status: int, message: string)

  datatype Result<+T> = Ok(value: T) | Err(error: HttpError)

  /**
   * The repository carries two revisions of every controller: the current
   * one (Auth.ts, User.ts, Shipping.ts, Order.ts) and an earlier one
   * (auth.controller.ts, user.controller.ts, shipping.controller.ts,
   * order/index.ts). Where they behave differently, handlers take the
   * revision as a parameter.
   */
  datatype Revision = Current | Earlier

  const BadRequest := 400
  const Unauthorized := 401
  const Forbidden := 403
  const RequestTimeout := 408
  const ServerError := 500
}

=== FILE: jwt.dfy ===
/**
 * JSON Web Tokens (RFC 7519) as the `jsonwebtoken` library signs and
 * verifies them, kept symbolic: a token records the algorithm and the key
 * it was signed with instead of a signature, and verifying with a secret
 * succeeds exactly when the token was signed with that secret under an
 * HMAC algorithm (HS256, section 3.2 of RFC 7518) and has not expired.
 */
module Jwt {
  import opened Wrappers
  import opened Http

  datatype Alg = HS256 | RS256

  /** The payload callers sign: `{userId, role}`, plus `tokenId` on refresh tokens. */
  datatype Claims = Claims(userId: string, role: string, tokenId: Option<string>)

  /** A signed token: times are in seconds since the epoch, as `iat` and `exp` are. */
  datatype Token = Token(
    alg: Alg,
    signingKey: string,
    claims: Claims,
    issuedAt: int,
    expiresAt: int,
    issuer: string,
    jwtId: Option<string>)

  const Issuer := "fudo-service"

  /** `sign(payload, key, {algorithm, expiresIn, issuer, jwtid})` at `nowMs`. */
  function Sign(alg: Alg, key: string, claims: Claims, nowMs: int, lifetimeSeconds: int, jwtId: Option<string>): (t: Token)
    ensures t.claims == claims && t.signingKey == key && t.alg == alg
    ensures t.expiresAt - t.issuedAt == lifetimeSeconds
    ensures t.issuedAt == nowMs / 1000 && t.issuer == Issuer && t.jwtId == jwtId
  {
    var iat := nowMs / 1000;
    Token(alg, key, claims, iat, iat + lifetimeSeconds, Issuer, jwtId)
  }

  /**
   * `verify(token, secret)` with a shared secret, at `nowMs`: the checks
   * run in the library's order (secret given, algorithm allowed, signature,
   * expiry) and each failure is the 401 that the express-jwt gate reports.
   */
  function Verify(t: Token, secret: string, nowMs: int): (r: Result<Claims>)
    ensures r.Ok? <==> secret != "" && t.alg == HS256 && t.signingKey == secret && nowMs / 1000 < t.expiresAt
    ensures r.Ok? ==> r.value == t.claims
    ensures r.Err? ==> r.error.status == Unauthorized
  {
    if secret == "" then Err(HttpError(Unauthorized, "secret or public key must be provided"))
    else if t.alg != HS256 then Err(HttpError(Unauthorized, "invalid algorithm"))
    else if t.signingKey != secret then Err(HttpError(Unauthorized, "invalid signature"))
    else if nowMs / 1000 >= t.expiresAt then Err(HttpError(Unauthorized, "jwt expired"))
    else Ok(t.claims)
  }
}

=== FILE: orders.dfy ===
/**
 * Placing an order (controllers/Order.ts, and the earlier
 * controllers/order/index.ts): the caller's shipping address is looked up,
 * one order item is saved per cart entry while the total is summed, then
 * a payment for the total and the order itself are saved.
 */
module Orders {
  import opened Wrappers
  import opened Http
  import opened Text
  import Jwt
  import opened Tables
  import opened Store
  import opened Replies
  import Shippings

  const MsgProductNotFound := "Product not found!"

  /**
   * Postgres refuses a query that compares an integer column with `NaN` or
   * a fractional number; the error's message starts with this (the quoted
   * value that follows is not modelled).
   */
  const MsgNotAnInteger := "invalid input syntax for type integer"

  /** The TypeError Node raises for `undefined.forEach`. */
  const MsgPricesNotLoaded := "Cannot read properties of undefined (reading 'forEach')"

  /** `PaymentMethod.NET_BANKING`, the only method an order is paid with. */
  const NetBanking := "net banking"

  /**
   * One `productId: {quantity, size}` entry of the parsed cart. A cart is
   * the sequence of its entries in the order `for ... in` visits them.
   */
  datatype CartEntry = CartEntry(productId: string, quantity: int, size: string)

  // ---------------------------------------------------------------------
  // The shipping lookup

  /**
   * `findShippingWithUserId(shippingId, userId)`: the address with id
   * `shippingId`, provided `userId` owns it. The handler lets only
   * integral ids reach it; the database refuses any other.
   */
  function FindOwnedShipping(shippings: Table<Shipping>, shippingId: Option<int>, userId: Option<int>): (r: Option<int>)
    ensures r.Some? <==> && shippingId.Some? && userId.Some?
                         && shippingId.value in shippings.rows
                         && shippings.rows[shippingId.value].ownerId == userId.value
    ensures r.Some? ==> r.value == shippingId.value
  {
    if shippingId.Some? && userId.Some? && shippingId.value in shippings.rows
       && shippings.rows[shippingId.value].ownerId == userId.value
    then shippingId
    else None
  }

  /**
   * Order.ts passes `(Number(userId), Number(shippingId))` to a service
   * whose parameters are `(shippingId, userId)`: the query asks for the
   * address whose id is the caller's user id, owned by the user whose id
   * is the requested shipping id.
   */
  function FindOwnedShippingAsWritten(shippings: Table<Shipping>, shippingId: Option<int>, userId: Option<int>): (r: Option<int>)
    ensures r.Some? <==> && shippingId.Some? && userId.Some?
                         && userId.value in shippings.rows
                         && shippings.rows[userId.value].ownerId == shippingId.value
    ensures r.Some? ==> r.value == userId.value
  {
    FindOwnedShipping(shippings, userId, shippingId)
  }

  /** The lookup each revision performs. */
  function ShippingFor(rev: Revision, shippings: Table<Shipping>, shippingId: Option<int>, userId: Option<int>): Option<int>
  {
    match rev
    case Current => FindOwnedShippingAsWritten(shippings, shippingId, userId)
    case Earlier => FindOwnedShipping(shippings, shippingId, userId)
  }

  /**
   * As written, user 1 cannot order to their own address 2, while user 2,
   * naming shipping id 1, is served user 1's address 2.
   */
  lemma SwappedLookupMisroutes()
    ensures var sh := Table(map[2 := Shipping("1 Main St", "Springfield", "12345", None, 1)], 3);
      && FindOwnedShipping(sh, Some(2), Some(1)) == Some(2)
      && FindOwnedShippingAsWritten(sh, Some(2), Some(1)) == None
      && FindOwnedShippingAsWritten(sh, Some(1), Some(2)) == Some(2)
      && sh.rows[2].ownerId != 2
  {
  }

  /**
   * In general: whenever the address numbered like the caller belongs to
   * someone else, the caller reaches it by naming that owner's id.
   */
  lemma SwappedLookupServesAStranger(shippings: Table<Shipping>, caller: int)
    requires caller in shippings.rows && shippings.rows[caller].ownerId != caller
    ensures var owner := shippings.rows[caller].ownerId;
      && FindOwnedShippingAsWritten(shippings, Some(owner), Some(caller)) == Some(caller)
      && FindOwnedShipping(shippings, Some(caller), Some(caller)) == None
  {
  }

  // ---------------------------------------------------------------------
  // Totals

  /** The price of a size: the sum of every price entry of that size. */
  function SizePrice(prices: seq<Price>, size: string): int
  {
    if |prices| == 0 then 0
    else SizePrice(prices[..|prices| - 1], size) + (if prices[|prices| - 1].size == size then prices[|prices| - 1].amount else 0)
  }

  /** A size the product is not sold in costs nothing. */
  lemma {:induction false} UnmatchedSizeCostsNothing(prices: seq<Price>, size: string)
    requires forall i :: 0 <= i < |prices| ==> prices[i].size != size
    ensures SizePrice(prices, size) == 0
  {
    if |prices| > 0 {
      UnmatchedSizeCostsNothing(prices[..|prices| - 1], size);
    }
  }

  /** Every price of the size counts, wherever it sits in the list. */
  lemma {:induction false} SizePriceSplits(a: seq<Price>, b: seq<Price>, size: string)
    ensures SizePrice(a + b, size) == SizePrice(a, size) + SizePrice(b, size)
    decreases |b|
  {
    if |b| == 0 {
      assert a + b == a;
    } else {
      var b' := b[..|b| - 1];
      assert (a + b)[..|a + b| - 1] == a + b';
      SizePriceSplits(a, b', size);
    }
  }

  /** The entry's product id names a product in the catalog. */
  predicate Known(products: Catalog, e: CartEntry)
  {
    IdOf(e.productId).Some? && IdOf(e.productId).value in products
  }

  /** An entry costs its quantity times the price of its size. */
  function EntryAmount(products: Catalog, e: CartEntry): int
  {
    if Known(products, e) then e.quantity * SizePrice(products[IdOf(e.productId).value].prices, e.size) else 0
  }

  function CartTotal(products: Catalog, cart: seq<CartEntry>): int
  {
    if |cart| == 0 then 0 else CartTotal(products, cart[..|cart| - 1]) + EntryAmount(products, cart[|cart| - 1])
  }

  /** The total of a cart is the total of any split of it. */
  lemma {:induction false} CartTotalSplits(products: Catalog, a: seq<CartEntry>, b: seq<CartEntry>)
    ensures CartTotal(products, a + b) == CartTotal(products, a) + CartTotal(products, b)
    decreases |b|
  {
    if |b| == 0 {
      assert a + b == a;
    } else {
      var b' := b[..|b| - 1];
      assert (a + b)[..|a + b| - 1] == a + b';
      CartTotalSplits(products, a, b');
    }
  }

  /**
   * The index of the first entry from `from` on whose product is unknown,
   * or the cart's length, given that the entries before `from` are known.
   */
  function FirstUnknownFrom(products: Catalog, cart: seq<CartEntry>, from: nat): (k: nat)
    requires from <= |cart|
    requires forall i :: 0 <= i < from ==> Known(products, cart[i])
    ensures from <= k <= |cart|
    ensures forall i :: 0 <= i < k ==> Known(products, cart[i])
    ensures k < |cart| ==> !Known(products, cart[k])
    decreases |cart| - from
  {
    if from == |cart| || !Known(products, cart[from]) then from
    else FirstUnknownFrom(products, cart, from + 1)
  }

  /** The index of the first entry whose product is unknown, or the cart's length. */
  function FirstUnknown(products: Catalog, cart: seq<CartEntry>): (k: nat)
    ensures k <= |cart|
    ensures forall i :: 0 <= i < k ==> Known(products, cart[i])
    ensures k < |cart| ==> !Known(products, cart[k])
  {
    FirstUnknownFrom(products, cart, 0)
  }

  /** Any index with only known entries before it and an unknown one at it (or the end) is the first. */
  lemma FirstUnknownIsTheFirst(products: Catalog, cart: seq<CartEntry>, k: nat)
    requires k <= |cart|
    requires forall i :: 0 <= i < k ==> Known(products, cart[i])
    requires k < |cart| ==> !Known(products, cart[k])
    ensures FirstUnknown(products, cart) == k
  {
  }

  /**
   * `after` is `before` with one fresh order item per entry, the i-th
   * under `ids[i]`, for the entry's product and quantity.
   */
  ghost predicate ItemsSaved(before: Table<OrderItem>, after: Table<OrderItem>, ids: seq<int>, entries: seq<CartEntry>)
  {
    && |ids| == |entries|
    && (forall i :: 0 <= i < |entries| ==> IdOf(entries[i].productId).Some?)
    && (forall i, j :: 0 <= i < j < |ids| ==> ids[i] != ids[j])
    && (forall i :: 0 <= i < |ids| ==>
          (ids[i] !in before.rows && ids[i] in after.rows &&
           after.rows[ids[i]] == OrderItem(IdOf(entries[i].productId).value, entries[i].quantity)))
    && (forall id :: id in after.rows ==> id in before.rows || id in ids)
    && (forall id :: id in before.rows ==> id in after.rows && after.rows[id] == before.rows[id])
  }

  lemma ItemsSavedExtend(before: Table<OrderItem>, after: Table<OrderItem>, ids: seq<int>, entries: seq<CartEntry>,
                         e: CartEntry, pid: int, after': Table<OrderItem>, ids': seq<int>, entries': seq<CartEntry>)
    requires after.Valid() && ItemsSaved(before, after, ids, entries)
    requires IdOf(e.productId) == Some(pid)
    requires after' == after.Insert(OrderItem(pid, e.quantity)).0
    requires ids' == ids + [after.next] && entries' == entries + [e]
    ensures ItemsSaved(before, after', ids', entries')
  {
    var id := after.next;
    forall i | 0 <= i < |ids'|
      ensures ids'[i] !in before.rows && ids'[i] in after'.rows
      ensures after'.rows[ids'[i]] == OrderItem(IdOf(entries'[i].productId).value, entries'[i].quantity)
    {
      if i < |ids| {
        assert ids'[i] == ids[i] && entries'[i] == entries[i];
        assert ids[i] in after.rows;
      }
    }
    forall i, j | 0 <= i < j < |ids'|
      ensures ids'[i] != ids'[j]
    {
      if j < |ids| {
        assert ids'[i] == ids[i] && ids'[j] == ids[j];
      } else {
        assert ids'[i] == ids[i] && ids[i] in after.rows;
      }
    }
  }

  /** Every entry's key is an integral number, so it can be saved as an order item. */
  predicate HasIds(entries: seq<CartEntry>)
  {
    forall i :: 0 <= i < |entries| ==> IdOf(entries[i].productId).Some?
  }

  /** The order item saved for an entry whose key is an integral number. */
  function ItemOf(e: CartEntry): OrderItem
    requires IdOf(e.productId).Some?
  {
    OrderItem(IdOf(e.productId).value, e.quantity)
  }

  /** The ids the sequence hands out for `n` rows in a row, starting at `from`. */
  function IdsFrom(from: int, n: nat): (ids: seq<int>)
    ensures |ids| == n && forall i :: 0 <= i < n ==> ids[i] == from + i
  {
    seq(n, i => from + i)
  }

  /** The table after `orderItemService.save` of one item per entry, in order. */
  function SaveAll(t: Table<OrderItem>, entries: seq<CartEntry>): (t': Table<OrderItem>)
    requires t.Valid()
    requires HasIds(entries)
    ensures t'.Valid() && t'.next == t.next + |entries|
    decreases |entries|
  {
    if |entries| == 0 then t
    else SaveAll(t, entries[..|entries| - 1]).Insert(ItemOf(entries[|entries| - 1])).0
  }

  /** Saving in turn gives every entry its own fresh row, and keeps the old rows. */
  lemma {:induction false} SaveAllSavesEachEntry(t: Table<OrderItem>, entries: seq<CartEntry>)
    requires t.Valid()
    requires HasIds(entries)
    ensures ItemsSaved(t, SaveAll(t, entries), IdsFrom(t.next, |entries|), entries)
    decreases |entries|
  {
    if |entries| == 0 {
      assert SaveAll(t, entries) == t;
    } else {
      var n := |entries| - 1;
      var e, init := entries[n], entries[..n];
      assert HasIds(init);
      var prev := SaveAll(t, init);
      SaveAllSavesEachEntry(t, init);
      assert SaveAll(t, entries) == prev.Insert(ItemOf(e)).0;
      assert IdsFrom(t.next, |entries|) == IdsFrom(t.next, n) + [prev.next];
      assert entries == init + [e];
      ItemsSavedExtend(t, prev, IdsFrom(t.next, n), init, e, IdOf(e.productId).value,
                       SaveAll(t, entries), IdsFrom(t.next, |entries|), entries);
    }
  }

  // ---------------------------------------------------------------------
  // The handler

  /** `prices.forEach(...)`: adds `amount * quantity` for each price of the entry's size. */
  method AddLineAmount(total: int, prices: seq<Price>, size: string, quantity: int) returns (total': int)
    ensures total' == total + quantity * SizePrice(prices, size)
  {
    total' := total;
    var j := 0;
    while j < |prices|
      invariant 0 <= j <= |prices|
      invariant total' == total + quantity * SizePrice(prices[..j], size)
    {
      assert prices[..j + 1][..j] == prices[..j];
      if prices[j].size == size {
        total' := total' + prices[j].amount * quantity;
      }
      j := j + 1;
    }
    assert prices[..j] == prices;
  }

  /** A known entry after a prefix of known entries keeps every key integral. */
  lemma HasIdsStep(products: Catalog, cart: seq<CartEntry>, k: nat)
    requires k < |cart| && Known(products, cart[k])
    requires forall j :: 0 <= j < k ==> Known(products, cart[j])
    ensures forall j :: 0 <= j < k + 1 ==> Known(products, cart[j])
    ensures HasIds(cart[..k + 1])
  {
    var longer := cart[..k + 1];
    forall i | 0 <= i < k + 1
      ensures IdOf(longer[i].productId).Some?
    {
      assert longer[i] == cart[i];
    }
  }

  /** Saving one more entry extends the saved prefix by that entry's item. */
  lemma SaveAllStep(t: Table<OrderItem>, entries: seq<CartEntry>, n: nat)
    requires t.Valid() && n < |entries| && HasIds(entries[..n + 1])
    ensures HasIds(entries[..n]) && IdOf(entries[n].productId).Some? &&
      SaveAll(t, entries[..n]).Insert(ItemOf(entries[n])).0 == SaveAll(t, entries[..n + 1])
  {
    var longer := entries[..n + 1];
    assert longer[..n] == entries[..n];
    assert longer[n] == entries[n];
    forall i | 0 <= i < n
      ensures IdOf(entries[..n][i].productId).Some?
    {
      assert entries[..n][i] == longer[i];
    }
  }

  /** The total of a prefix grows by the amount of the entry that extends it. */
  lemma CartTotalStep(products: Catalog, cart: seq<CartEntry>, k: nat)
    requires k < |cart|
    ensures CartTotal(products, cart[..k + 1]) == CartTotal(products, cart[..k]) + EntryAmount(products, cart[k])
  {
    assert cart[..k + 1][..k] == cart[..k];
  }

  /** `saved` is `items` after saving the first `k` entries of the cart, in order. */
  predicate SavedPrefix(items: Table<OrderItem>, saved: Table<OrderItem>, cart: seq<CartEntry>, k: nat)
    requires items.Valid()
  {
    k <= |cart| && HasIds(cart[..k]) && saved == SaveAll(items, cart[..k])
  }

  /** One turn of the cart loop on a known entry keeps every fact the loop carries. */
  lemma SaveItemsStep(products: Catalog, items: Table<OrderItem>, cart: seq<CartEntry>, k: nat,
                      saved: Table<OrderItem>, ids: seq<int>)
    requires items.Valid() && k < |cart| && Known(products, cart[k])
    requires forall j :: 0 <= j < k ==> Known(products, cart[j])
    requires SavedPrefix(items, saved, cart, k) && ids == IdsFrom(items.next, k)
    ensures forall j :: 0 <= j < k + 1 ==> Known(products, cart[j])
    ensures FirstUnknownFrom(products, cart, k + 1) == FirstUnknownFrom(products, cart, k)
    ensures saved.Valid() && SavedPrefix(items, saved.Insert(ItemOf(cart[k])).0, cart, k + 1)
    ensures ids + [saved.next] == IdsFrom(items.next, k + 1)
    ensures CartTotal(products, cart[..k + 1]) == CartTotal(products, cart[..k]) + EntryAmount(products, cart[k])
  {
    HasIdsStep(products, cart, k);
    SaveAllStep(items, cart, k);
    CartTotalStep(products, cart, k);
  }

  /**
   * The cart loop: one order item per entry, in order, until the first
   * unknown product (`k`), and the running total, which is the cart's
   * total once every entry has been saved.
   */
  method SaveItems(products: Catalog, items: Table<OrderItem>, cart: seq<CartEntry>)
    returns (saved: Table<OrderItem>, ids: seq<int>, total: int, k: nat)
    requires items.Valid()
    ensures k == FirstUnknown(products, cart)
    ensures SavedPrefix(items, saved, cart, k) && ids == IdsFrom(items.next, k)
    ensures k == |cart| ==> total == CartTotal(products, cart)
  {
    saved, ids, total := items, [], 0;
    k := 0;
    while k < |cart|
      invariant 0 <= k <= |cart|
      invariant forall j :: 0 <= j < k ==> Known(products, cart[j])
      invariant FirstUnknownFrom(products, cart, k) == FirstUnknown(products, cart)
      invariant SavedPrefix(items, saved, cart, k)
      invariant ids == IdsFrom(items.next, k)
      invariant total == CartTotal(products, cart[..k])
    {
      var e := cart[k];
      if !Known(products, e) {
        break;
      }
      var pid := IdOf(e.productId).value;
      SaveItemsStep(products, items, cart, k, saved, ids);
      var (next, id) := saved.Insert(OrderItem(pid, e.quantity));
      total := AddLineAmount(total, products[pid].prices, e.size, e.quantity);
      saved, ids := next, ids + [id];
      k := k + 1;
    }
    if k == |cart| {
      assert cart[..k] == cart;
    }
  }

  /**
   * The earlier revision's loop on a non-empty cart: a first key that is
   * not an integral number makes the database refuse the product query (a
   * 500), an unknown first product is a 400; a known one gets its order
   * item saved, and reading the unloaded `prices` of the saved item then
   * throws.
   */
  function UnloadedPrices(db: Db, cart: seq<CartEntry>): (r: Step)
    requires db.WellFormed() && |cart| > 0
    ensures r.db.WellFormed() && r.db == db.(orderItems := r.db.orderItems)
    ensures IdOf(cart[0].productId).None? ==> r == Step(db, Failed(ServerError, MsgNotAnInteger))
    ensures IdOf(cart[0].productId).Some? && !Known(db.products, cart[0]) ==>
      r == Step(db, Failed(BadRequest, MsgProductNotFound))
    ensures Known(db.products, cart[0]) ==>
      && r.reply == Failed(ServerError, MsgPricesNotLoaded)
      && r.db.orderItems.rows == db.orderItems.rows[db.orderItems.next := ItemOf(cart[0])]
  {
    if IdOf(cart[0].productId).None? then Step(db, Failed(ServerError, MsgNotAnInteger))
    else if !Known(db.products, cart[0]) then Step(db, Failed(BadRequest, MsgProductNotFound))
    else Step(db.(orderItems := db.orderItems.Insert(ItemOf(cart[0])).0), Failed(ServerError, MsgPricesNotLoaded))
  }

  /**
   * A placed order: it links the caller and the address the lookup found
   * (the caller's own, in the earlier revision), every cart entry is known
   * and got its fresh order item, and the payment of the cart's total and
   * the order are new rows of `db'`.
   */
  ghost predicate OrderPlaced(db: Db, db': Db, rev: Revision, auth: Jwt.Claims, shippingParam: string,
                              cart: seq<CartEntry>, orderId: int, o: Order)
  {
    && LookupId(db.users, auth.userId) == Some(o.userId)
    && ShippingFor(rev, db.shippings, IdOf(shippingParam), IdOf(auth.userId)) == Some(o.shippingId)
    && (rev == Earlier ==> o.shippingId in db.shippings.rows && db.shippings.rows[o.shippingId].ownerId == o.userId)
    && FirstUnknown(db.products, cart) == |cart|
    && ItemsSaved(db.orderItems, db'.orderItems, o.itemIds, cart)
    && o.paymentId !in db.payments.rows
    && db'.payments.rows == db.payments.rows[o.paymentId := Payment(CartTotal(db.products, cart), NetBanking)]
    && orderId !in db.orders.rows
    && db'.orders.rows == db.orders.rows[orderId := o]
  }

  /**
   * addOrderItems. The caller must exist and the shipping lookup must find
   * an address; then each entry in turn must name a known product, and
   * gets an order item whose amount is added to the total. An unknown
   * product ends the request with a 400, keeping the items already saved
   * but saving no payment and no order. Nothing guards the ids before the
   * queries: a shipping id or cart key that is not an integral number
   * makes the database refuse the query, and the request ends in a 500 at
   * that point, with the same writes kept. Otherwise a "net banking" payment
   * of the total is saved, and an order linking the caller, the address,
   * the payment and exactly the new items.
   *
   * The earlier revision fetches products with `findProductById`, which
   * loads no `prices` relation, so `orderItem.product.prices.forEach`
   * throws once the first known entry's item is saved: the catch hands the
   * TypeError on, and the request ends in a 500 with that one item kept.
   * Only an empty cart gets through to the payment and the order there.
   */
  method AddOrderItems(db: Db, rev: Revision, auth: Jwt.Claims, shippingParam: string, cart: seq<CartEntry>) returns (r: Step)
    requires db.WellFormed()
    ensures r.db.WellFormed()
    ensures r.db == db.(orderItems := r.db.orderItems, payments := r.db.payments, orders := r.db.orders)
    ensures LookupId(db.users, auth.userId).None? ==> r == Step(db, Failed(BadRequest, MsgUserNotFound))
    ensures LookupId(db.users, auth.userId).Some? && IdOf(shippingParam).None? ==>
      r == Step(db, Failed(ServerError, MsgNotAnInteger))
    ensures LookupId(db.users, auth.userId).Some? && IdOf(shippingParam).Some? &&
            ShippingFor(rev, db.shippings, IdOf(shippingParam), IdOf(auth.userId)).None? ==>
      r == Step(db, Failed(BadRequest, Shippings.MsgShippingNotFound))
    ensures LookupId(db.users, auth.userId).Some? && ShippingFor(rev, db.shippings, IdOf(shippingParam), IdOf(auth.userId)).Some? &&
            rev == Earlier && |cart| > 0 ==>
      r == UnloadedPrices(db, cart)
    ensures LookupId(db.users, auth.userId).Some? && ShippingFor(rev, db.shippings, IdOf(shippingParam), IdOf(auth.userId)).Some? &&
            (rev == Current || |cart| == 0) ==>
      var k := FirstUnknown(db.products, cart);
      && (k < |cart| ==>
            && (IdOf(cart[k].productId).None? ==> r.reply == Failed(ServerError, MsgNotAnInteger))
            && (IdOf(cart[k].productId).Some? ==> r.reply == Failed(BadRequest, MsgProductNotFound))
            && r.db.payments == db.payments && r.db.orders == db.orders
            && exists ids :: ItemsSaved(db.orderItems, r.db.orderItems, ids, cart[..k]))
      && (k == |cart| ==> r.reply.OrderJson?)
    ensures r.reply.OrderJson? ==> OrderPlaced(db, r.db, rev, auth, shippingParam, cart, r.reply.orderId, r.reply.order)
  {
    var user := LookupId(db.users, auth.userId);
    if user.None? {
      return Step(db, Failed(BadRequest, MsgUserNotFound));
    }
    if IdOf(shippingParam).None? {
      return Step(db, Failed(ServerError, MsgNotAnInteger));
    }
    var shipping := ShippingFor(rev, db.shippings, IdOf(shippingParam), IdOf(auth.userId));
    if shipping.None? {
      return Step(db, Failed(BadRequest, Shippings.MsgShippingNotFound));
    }
    if rev == Earlier && |cart| > 0 {
      return UnloadedPrices(db, cart);
    }
    var items, ids, total, k := SaveItems(db.products, db.orderItems, cart);
    SaveAllSavesEachEntry(db.orderItems, cart[..k]);
    if k < |cart| {
      var refused := IdOf(cart[k].productId).None?;
      return Step(db.(orderItems := items),
                  if refused then Failed(ServerError, MsgNotAnInteger) else Failed(BadRequest, MsgProductNotFound));
    }
    assert cart[..k] == cart;
    var (payments', paymentId) := db.payments.Insert(Payment(total, NetBanking));
    var order := Order(user.value, shipping.value, paymentId, ids);
    var (orders', orderId) := db.orders.Insert(order);
    r := Step(db.(orderItems := items, payments := payments', orders := orders'), OrderJson(orderId, order));
  }
}

=== FILE: otp.dfy ===
/**
 * The stateless OTP tickets of registration and password reset.
 *
 * Issuing a ticket signs the OTP, the email, the expiry and (for
 * registration) the password hash with HMAC-SHA256, and hands the client
 * `sig#expires#passwordHash` (registration) or `sig#expires` (reset).
 * Redeeming splits the ticket on `#`, re-signs what the client sends back
 * and compares.
 *
 * The controllers join the signed fields with `.`, which does not determine
 * the fields: `Binding.Dotted` models that, and `Binding.Framed` is a
 * length-prefixed encoding that does, so that the same handlers can be
 * stated both as written and as evidently intended.
 */
module OtpTicket {
  import opened Wrappers
  import opened Http
  import opened Text
  import opened Credential

  /** `1000 * 60 * 15`: a registration ticket lives fifteen minutes. */
  const RegistrationTtl := 900_000

  /** `1000 * 60 * 10`: a reset ticket lives ten minutes. */
  const ResetTtl := 600_000

  /** How the signed fields are put together into the HMAC input. */
  datatype Binding = Dotted | Framed

  // ---------------------------------------------------------------------
  // Length-prefixed framing: `<length>:<field>` for each field in turn

  function Frame(f: string): (s: string)
    ensures |s| > |f|
  {
    NatToString(|f|) + ":" + f
  }

  function FrameAll(fields: seq<string>): string
  {
    if |fields| == 0 then "" else Frame(fields[0]) + FrameAll(fields[1..])
  }

  /** The first frame of a string determines its field and the rest. */
  lemma {:induction false} FrameIsPrefixFree(a: string, b: string, ra: string, rb: string)
    requires Frame(a) + ra == Frame(b) + rb
    ensures a == b && ra == rb
  {
    var da, db := NatToString(|a|), NatToString(|b|);
    var s := Frame(a) + ra;
    assert s == da + ":" + a + ra;
    assert s == db + ":" + b + rb;
    // Both digit runs end at the first colon of `s`.
    assert forall i :: 0 <= i < |da| ==> IsDigit(s[i]);
    assert forall i :: 0 <= i < |db| ==> IsDigit(s[i]);
    assert s[|da|] == ':' && s[|db|] == ':';
    assert |da| == |db|;
    assert da == s[..|da|] == db;
    NatToStringValue(|a|);
    NatToStringValue(|b|);
    assert |a| == |b|;
    assert a == s[|da| + 1 .. |da| + 1 + |a|] == b;
    assert ra == s[|da| + 1 + |a|..] == rb;
  }

  /** Framing is injective: the signed string determines every field. */
  lemma {:induction false} FrameAllInjective(xs: seq<string>, ys: seq<string>)
    requires FrameAll(xs) == FrameAll(ys)
    ensures xs == ys
    decreases |xs|
  {
    if |xs| > 0 && |ys| > 0 {
      FrameIsPrefixFree(xs[0], ys[0], FrameAll(xs[1..]), FrameAll(ys[1..]));
      FrameAllInjective(xs[1..], ys[1..]);
      assert xs == [xs[0]] + xs[1..];
      assert ys == [ys[0]] + ys[1..];
    }
  }

  /** The HMAC input for a list of fields. */
  function Bind(b: Binding, fields: seq<string>): string
  {
    match b
    case Dotted => Join(fields, '.')
    case Framed => FrameAll(fields)
  }

  /** `${otp}.${email}.${expires}.${hashPassword}`, or its framed form. */
  function RegistrationData(b: Binding, otp: string, email: string, expires: string, passwordHash: string): string
  {
    Bind(b, [otp, email, expires, passwordHash])
  }

  /** `${otp}.${email}.${expires}`, or its framed form. */
  function ResetData(b: Binding, otp: string, email: string, expires: string): string
  {
    Bind(b, [otp, email, expires])
  }

  /**
   * As written, a dot inside the email can be moved into the expiry field
   * without changing the signed string: the signature over one email is
   * also a signature over a shorter one.
   */
  lemma {:induction false} DottedDataShift(otp: string, a: string, b: string, expires: string, passwordHash: string)
    ensures RegistrationData(Dotted, otp, a + "." + b, expires, passwordHash)
         == RegistrationData(Dotted, otp, a, b + "." + expires, passwordHash)
    ensures ResetData(Dotted, otp, a + "." + b, expires) == ResetData(Dotted, otp, a, b + "." + expires)
  {
    var e := a + "." + b;
    var x := b + "." + expires;
    JoinPair(expires, passwordHash, '.');
    JoinPair(x, passwordHash, '.');
    assert [otp, e, expires, passwordHash][1..] == [e, expires, passwordHash];
    assert [e, expires, passwordHash][1..] == [expires, passwordHash];
    assert [otp, a, x, passwordHash][1..] == [a, x, passwordHash];
    assert [a, x, passwordHash][1..] == [x, passwordHash];
    assert Join([e, expires, passwordHash], '.') == e + "." + (expires + "." + passwordHash);
    assert Join([a, x, passwordHash], '.') == a + "." + (x + "." + passwordHash);
    assert e + "." + (expires + "." + passwordHash) == a + "." + (x + "." + passwordHash);
    JoinPair(e, expires, '.');
    JoinPair(a, x, '.');
    assert [otp, e, expires][1..] == [e, expires];
    assert [otp, a, x][1..] == [a, x];
  }

  /** Framed, the signed string determines the OTP, the email, the expiry and the hash. */
  lemma FramedDataBindsEveryField(
    otp: string, email: string, expires: string, passwordHash: string,
    otp': string, email': string, expires': string, passwordHash': string)
    ensures RegistrationData(Framed, otp, email, expires, passwordHash) == RegistrationData(Framed, otp', email', expires', passwordHash')
        <==> otp == otp' && email == email' && expires == expires' && passwordHash == passwordHash'
    ensures ResetData(Framed, otp, email, expires) == ResetData(Framed, otp', email', expires')
        <==> otp == otp' && email == email' && expires == expires'
  {
    if RegistrationData(Framed, otp, email, expires, passwordHash) == RegistrationData(Framed, otp', email', expires', passwordHash') {
      FrameAllInjective([otp, email, expires, passwordHash], [otp', email', expires', passwordHash']);
      assert [otp, email, expires, passwordHash][1] == [otp', email', expires', passwordHash'][1];
    }
    if ResetData(Framed, otp, email, expires) == ResetData(Framed, otp', email', expires') {
      FrameAllInjective([otp, email, expires], [otp', email', expires']);
      assert [otp, email, expires][1] == [otp', email', expires'][1];
    }
  }

  // ---------------------------------------------------------------------
  // Tickets

  /** `${hashData}#${expires}#${hashPassword}`. */
  function RegistrationTicket(sig: string, expires: string, passwordHash: string): string
  {
    Join([sig, expires, passwordHash], '#')
  }

  /** `${hashOtpData}#${expires}`. */
  function ResetTicket(sig: string, expires: string): string
  {
    Join([sig, expires], '#')
  }

  /** `hashOtp.split("#")`. */
  function Fields(ticket: string): (f: seq<string>)
    ensures |f| >= 1
  {
    Split(ticket, '#')
  }

  /** `Date.now() > +expires`: never true when the field is not a number. */
  predicate Expired(now: int, expires: string)
  {
    Exceeds(now, ToNumber(expires))
  }

  /**
   * The registration ticket `sendOtp` issues at `now` for this OTP, email
   * and password hash, or the 500 of a missing HASH_SECRET.
   */
  function IssueRegistration(b: Binding, cfg: Config, c: Crypto, otp: int, email: string, passwordHash: string, now: int): (r: Result<string>)
    ensures r.Err? <==> !Present(cfg.hashSecret)
    ensures r.Err? ==> r.error == HttpError(ServerError, MsgHashSecretMissing)
  {
    var expires := IntToString(now + RegistrationTtl);
    match HashDataWithSecret(cfg, c, RegistrationData(b, IntToString(otp), email, expires, passwordHash))
    case Err(e) => Err(e)
    case Ok(sig) => Ok(RegistrationTicket(sig, expires, passwordHash))
  }

  /** The reset ticket `forgetPassword` issues at `now`. */
  function IssueReset(b: Binding, cfg: Config, c: Crypto, otp: int, email: string, now: int): (r: Result<string>)
    ensures r.Err? <==> !Present(cfg.hashSecret)
    ensures r.Err? ==> r.error == HttpError(ServerError, MsgHashSecretMissing)
  {
    var expires := IntToString(now + ResetTtl);
    match HashDataWithSecret(cfg, c, ResetData(b, IntToString(otp), email, expires))
    case Err(e) => Err(e)
    case Ok(sig) => Ok(ResetTicket(sig, expires))
  }

  /**
   * A registration ticket splits back into its signature, its expiry (a
   * rendered integer that reads back as the issue time plus fifteen
   * minutes) and the password hash, when neither the digest nor the hash
   * contains `#`.
   */
  lemma RegistrationTicketReadsBack(b: Binding, cfg: Config, c: Crypto, otp: int, email: string, salt: int, plain: string, now: int, later: int)
    requires Present(cfg.hashSecret) && TicketSafe(c)
    ensures var hash := HashData(c, plain, salt);
      var expires := IntToString(now + RegistrationTtl);
      Fields(IssueRegistration(b, cfg, c, otp, email, hash, now).value)
        == [c.hmacSha256(cfg.hashSecret.value, RegistrationData(b, IntToString(otp), email, expires, hash)), expires, hash]
    ensures Expired(later, IntToString(now + RegistrationTtl)) <==> later > now + RegistrationTtl
  {
    var hash := HashData(c, plain, salt);
    var expires := IntToString(now + RegistrationTtl);
    var sig := c.hmacSha256(cfg.hashSecret.value, RegistrationData(b, IntToString(otp), email, expires, hash));
    IntToStringAlphabet(now + RegistrationTtl, '#');
    assert Separable([sig, expires, hash], '#');
    SplitJoin([sig, expires, hash], '#');
    NumberOfIntToString(now + RegistrationTtl);
  }

  /** The reset counterpart: signature and expiry, ten minutes after issue. */
  lemma ResetTicketReadsBack(b: Binding, cfg: Config, c: Crypto, otp: int, email: string, now: int, later: int)
    requires Present(cfg.hashSecret) && TicketSafe(c)
    ensures var expires := IntToString(now + ResetTtl);
      Fields(IssueReset(b, cfg, c, otp, email, now).value)
        == [c.hmacSha256(cfg.hashSecret.value, ResetData(b, IntToString(otp), email, expires)), expires]
    ensures Expired(later, IntToString(now + ResetTtl)) <==> later > now + ResetTtl
  {
    var expires := IntToString(now + ResetTtl);
    var sig := c.hmacSha256(cfg.hashSecret.value, ResetData(b, IntToString(otp), email, expires));
    IntToStringAlphabet(now + ResetTtl, '#');
    assert Separable([sig, expires], '#');
    SplitJoin([sig, expires], '#');
    NumberOfIntToString(now + ResetTtl);
  }
}

=== FILE: replies.dfy ===
/**
 * What a handler sends back: an error (status and message), or one of the
 * JSON bodies the controllers build, together with the cookies it sets or
 * clears. A handler's full effect is a `Step`: the store after the request
 * and the reply.
 */
module Replies {
  import opened Wrappers
  import opened Http
  import opened Store
  import Jwt

  /** A user as serialised in a response; `password` is null when suppressed. */
  datatype UserView = UserView(id: int, fullName: string, email: string, password: Option<string>, role: Role, status: Status)

  /**
   * The user object a response carries, as far as these fields go. The
   * earlier revision spreads `{...user, password: null}`; the current one
   * sends the entity, stored hash included. The `shippings` list the
   * current revision's user queries also load is not part of the view.
   */
  function View(id: int, u: User, rev: Revision): (v: UserView)
    ensures v.id == id && v.email == u.email && v.fullName == u.fullName
    ensures v.role == u.role && v.status == u.status
    ensures v.password.None? <==> rev == Earlier
    ensures v.password.Some? ==> v.password.value == u.password
  {
    UserView(id, u.fullName, u.email, if rev == Earlier then None else Some(u.password), u.role, u.status)
  }

  /** The `accessToken` and `refreshToken` cookies. */
  datatype Cookies = Unchanged | SetTokens(access: Jwt.Token, refresh: Jwt.Token) | Cleared

  /** `otpInfo`: what the client must echo back to redeem the ticket. */
  datatype OtpInfo = OtpInfo(fullName: string, email: string, hashOtp: string)

  datatype Reply =
    | Fail(error: HttpError)
    | OtpSent(info: OtpInfo, otp: int)
    | UserJson(user: Option<UserView>, cookies: Cookies)
    | Done
    | Removed(id: string)
    | ShippingJson(shippingId: int, shipping: Shipping, owner: Option<UserView>)
    | OrderJson(orderId: int, order: Order)

  datatype Step = Step(db: Db, reply: Reply)

  function Failed(status: int, message: string): Reply
  {
    Fail(HttpError(status, message))
  }

  const MsgUserNotFound := "User not found!"
}

=== FILE: shippings.dfy ===
/**
 * The shipping-address operations (controllers/Shipping.ts, and the earlier
 * controllers/shipping.controller.ts, which has no `country` field): a
 * signed-in user adds, edits and deletes addresses; an admin deletes any.
 */
module Shippings {
  import opened Wrappers
  import opened Http
  import opened Text
  import Jwt
  import opened Tables
  import opened Store
  import opened Replies

  const MsgShippingIdInvalid := "Shipping id is invalid!"
  const MsgInvalidShippingId := "Invalid shipping id!"
  const MsgShippingNotFound := "Shipping address not found!"
  const MsgNotOwner := "This shipping address not belong to the user!"

  /**
   * The `user` relation a current-revision address is reloaded with
   * (`shippingService.getById`): the owner's entity as is, stored hash
   * included, or null when no user row has the owner's id.
   */
  function OwnerView(users: Table<User>, ownerId: int): (v: Option<UserView>)
    ensures v.Some? <==> ownerId in users.rows
    ensures v.Some? ==> v.value.id == ownerId && v.value.email == users.rows[ownerId].email
                        && v.value.password == Some(users.rows[ownerId].password)
  {
    if ownerId in users.rows then Some(View(ownerId, users.rows[ownerId], Current)) else None
  }

  /**
   * postShipping: a new address owned by the signed-in user. The current
   * revision stores the country and replies with the address reloaded with
   * its owner, the caller's entity; the earlier one stores no country and
   * replies with the user.
   */
  function PostShipping(db: Db, rev: Revision, auth: Jwt.Claims,
                        address: string, city: string, postalCode: string, country: string): (r: Step)
    requires db.WellFormed()
    ensures r.db.WellFormed()
    ensures LookupId(db.users, auth.userId).None? ==> r == Step(db, Failed(BadRequest, MsgUserNotFound))
    ensures LookupId(db.users, auth.userId).Some? ==>
      var uid := IdOf(auth.userId).value;
      var stored := Shipping(address, city, postalCode, if rev == Current then Some(country) else None, uid);
      && r.db == db.(shippings := r.db.shippings)
      && (exists sid :: sid !in db.shippings.rows && r.db.shippings.rows == db.shippings.rows[sid := stored]
           && (rev == Current ==> r.reply == ShippingJson(sid, stored, Some(View(uid, db.users.rows[uid], Current)))))
      && (rev == Earlier ==> r.reply == UserJson(Some(View(uid, db.users.rows[uid], Earlier)), Unchanged))
  {
    match LookupId(db.users, auth.userId)
    case None => Step(db, Failed(BadRequest, MsgUserNotFound))
    case Some(uid) =>
      var stored := Shipping(address, city, postalCode, if rev == Current then Some(country) else None, uid);
      var (shippings', sid) := db.shippings.Insert(stored);
      var reply := if rev == Current then ShippingJson(sid, stored, Some(View(uid, db.users.rows[uid], Current))) else UserJson(Some(View(uid, db.users.rows[uid], Earlier)), Unchanged);
      Step(db.(shippings := shippings'), reply)
  }

  /**
   * deleteShipping: the path id must be a number, the caller must exist,
   * the address must exist and belong to the caller; then exactly that
   * address goes. Both revisions agree.
   */
  function DeleteShipping(db: Db, auth: Jwt.Claims, param: string): (r: Step)
    ensures db.WellFormed() ==> r.db.WellFormed()
    ensures r.reply.Removed? <==>
      && LookupId(db.users, auth.userId).Some?
      && LookupId(db.shippings, param).Some?
      && db.shippings.rows[IdOf(param).value].ownerId == IdOf(auth.userId).value
    ensures r.reply.Removed? ==> r == Step(db.(shippings := db.shippings.Delete(IdOf(param).value)), Removed(param))
    ensures !r.reply.Removed? ==> r.db == db && r.reply.Fail? && r.reply.error.status == BadRequest
    ensures IsNaN(param) ==> r.reply == Failed(BadRequest, MsgShippingIdInvalid)
    ensures !IsNaN(param) && LookupId(db.users, auth.userId).None? ==> r.reply == Failed(BadRequest, MsgUserNotFound)
    ensures !IsNaN(param) && LookupId(db.users, auth.userId).Some? && LookupId(db.shippings, param).None? ==>
      r.reply == Failed(BadRequest, MsgShippingNotFound)
    ensures (LookupId(db.users, auth.userId).Some? && LookupId(db.shippings, param).Some? &&
             db.shippings.rows[IdOf(param).value].ownerId != IdOf(auth.userId).value) ==>
      r.reply == Failed(BadRequest, MsgNotOwner)
  {
    if IsNaN(param) then Step(db, Failed(BadRequest, MsgShippingIdInvalid))
    else match LookupId(db.users, auth.userId)
      case None => Step(db, Failed(BadRequest, MsgUserNotFound))
      case Some(uid) =>
        match LookupId(db.shippings, param)
        case None => Step(db, Failed(BadRequest, MsgShippingNotFound))
        case Some(sid) =>
          if db.shippings.rows[sid].ownerId != uid then Step(db, Failed(BadRequest, MsgNotOwner))
          else Step(db.(shippings := db.shippings.Delete(sid)), Removed(param))
  }

  /**
   * updateShipping: overwrites the address fields of any existing address,
   * whoever owns it. The earlier revision leaves `country` as it was and
   * loads the address without its owner; the current one loads it with the
   * owner's entity and sends that back too.
   */
  function UpdateShipping(db: Db, rev: Revision, auth: Jwt.Claims, param: string,
                          address: string, city: string, postalCode: string, country: string): (r: Step)
    ensures db.WellFormed() ==> r.db.WellFormed()
    ensures IsNaN(param) ==> r == Step(db, Failed(BadRequest, MsgInvalidShippingId))
    ensures !IsNaN(param) && LookupId(db.users, auth.userId).None? ==> r == Step(db, Failed(BadRequest, MsgUserNotFound))
    ensures LookupId(db.users, auth.userId).Some? && !IsNaN(param) && LookupId(db.shippings, param).None? ==>
      r == Step(db, Failed(BadRequest, MsgShippingNotFound))
    ensures r.reply.ShippingJson? <==> LookupId(db.users, auth.userId).Some? && LookupId(db.shippings, param).Some?
    ensures r.reply.ShippingJson? ==>
      var sid := IdOf(param).value;
      var old_ := db.shippings.rows[sid];
      var s' := Shipping(address, city, postalCode, if rev == Current then Some(country) else old_.country, old_.ownerId);
      && r.db == db.(shippings := r.db.shippings)
      && r.db.shippings.rows == db.shippings.rows[sid := s']
      && r.reply == ShippingJson(sid, s', if rev == Current then OwnerView(db.users, old_.ownerId) else None)
  {
    if IsNaN(param) then Step(db, Failed(BadRequest, MsgInvalidShippingId))
    else match LookupId(db.users, auth.userId)
      case None => Step(db, Failed(BadRequest, MsgUserNotFound))
      case Some(_) =>
        match LookupId(db.shippings, param)
        case None => Step(db, Failed(BadRequest, MsgShippingNotFound))
        case Some(sid) =>
          var s := db.shippings.rows[sid];
          var s' := s.(address := address, city := city, postalCode := postalCode,
                       country := if rev == Current then Some(country) else s.country);
          Step(db.(shippings := db.shippings.Put(sid, s')),
               ShippingJson(sid, s', if rev == Current then OwnerView(db.users, s.ownerId) else None))
  }

  /** deleteShippingByAdmin: any existing address, with no user or owner check. */
  function DeleteShippingByAdmin(db: Db, param: string): (r: Step)
    ensures db.WellFormed() ==> r.db.WellFormed()
    ensures IsNaN(param) ==> r == Step(db, Failed(BadRequest, MsgShippingIdInvalid))
    ensures !IsNaN(param) && LookupId(db.shippings, param).None? ==> r == Step(db, Failed(BadRequest, MsgShippingNotFound))
    ensures LookupId(db.shippings, param).Some? ==>
      r == Step(db.(shippings := db.shippings.Delete(IdOf(param).value)), Removed(param))
  {
    if IsNaN(param) then Step(db, Failed(BadRequest, MsgShippingIdInvalid))
    else match LookupId(db.shippings, param)
      case None => Step(db, Failed(BadRequest, MsgShippingNotFound))
      case Some(sid) => Step(db.(shippings := db.shippings.Delete(sid)), Removed(param))
  }

  /**
   * Another user's address survives the owner-checked deletion, and an
   * owner's deletion removes what the admin deletion would.
   */
  lemma OnlyTheOwnerDeletes(db: Db, auth: Jwt.Claims, param: string)
    requires LookupId(db.users, auth.userId).Some? && LookupId(db.shippings, param).Some?
    ensures var r := DeleteShipping(db, auth, param);
      var owner := db.shippings.rows[IdOf(param).value].ownerId;
      && (owner != IdOf(auth.userId).value ==> r.db.shippings == db.shippings)
      && (owner == IdOf(auth.userId).value ==> r == DeleteShippingByAdmin(db, param))
  {
  }

  /**
   * Editing guards nothing but existence: a caller who is refused the
   * deletion of an address for not owning it may still overwrite it, and
   * the owner stays as it was.
   */
  lemma AnyUserEditsAnyAddress(db: Db, rev: Revision, auth: Jwt.Claims, param: string,
                               address: string, city: string, postalCode: string, country: string)
    requires LookupId(db.users, auth.userId).Some? && LookupId(db.shippings, param).Some?
    requires DeleteShipping(db, auth, param).reply == Failed(BadRequest, MsgNotOwner)
    ensures var r := UpdateShipping(db, rev, auth, param, address, city, postalCode, country);
      var sid := IdOf(param).value;
      && r.reply.ShippingJson?
      && r.db.shippings.rows[sid].ownerId == db.shippings.rows[sid].ownerId
      && r.db.shippings.rows[sid].ownerId != IdOf(auth.userId).value
      && r.db.shippings.rows[sid].address == address
  {
  }

  /**
   * In the current revision, a caller who does not own an address and
   * edits it is sent the owner's entity: their id, email and stored bcrypt
   * hash. The earlier revision sends no owner.
   */
  lemma NonOwnerEditReceivesTheOwnersHash(db: Db, auth: Jwt.Claims, param: string,
                                          address: string, city: string, postalCode: string, country: string)
    requires LookupId(db.users, auth.userId).Some? && LookupId(db.shippings, param).Some?
    requires DeleteShipping(db, auth, param).reply == Failed(BadRequest, MsgNotOwner)
    requires db.shippings.rows[IdOf(param).value].ownerId in db.users.rows
    ensures var owner := db.shippings.rows[IdOf(param).value].ownerId;
      var r := UpdateShipping(db, Current, auth, param, address, city, postalCode, country);
      && r.reply.ShippingJson? && r.reply.owner.Some?
      && r.reply.owner.value.id == owner && owner != IdOf(auth.userId).value
      && r.reply.owner.value.email == db.users.rows[owner].email
      && r.reply.owner.value.password == Some(db.users.rows[owner].password)
    ensures UpdateShipping(db, Earlier, auth, param, address, city, postalCode, country).reply.owner == None
  {
  }

  /**
   * An edit leaves the address deletable by its owner, in either revision,
   * and deleting it afterwards leaves the same addresses as deleting it
   * unedited.
   */
  lemma EditedAddressDeletesAsBefore(db: Db, rev: Revision, auth: Jwt.Claims, param: string,
                                     address: string, city: string, postalCode: string, country: string)
    requires LookupId(db.users, auth.userId).Some? && LookupId(db.shippings, param).Some?
    requires db.shippings.rows[IdOf(param).value].ownerId == IdOf(auth.userId).value
    ensures var edited := UpdateShipping(db, rev, auth, param, address, city, postalCode, country);
      var removed := DeleteShipping(edited.db, auth, param);
      && removed.reply == Removed(param)
      && removed.db == DeleteShipping(db, auth, param).db
  {
    var sid := IdOf(param).value;
    var edited := UpdateShipping(db, rev, auth, param, address, city, postalCode, country);
    assert edited.db.shippings.rows - {sid} == db.shippings.rows - {sid};
  }

  /** A posted address can be deleted by its poster with the id it was given. */
  lemma PostedAddressIsDeletableByItsOwner(db: Db, auth: Jwt.Claims,
                                           address: string, city: string, postalCode: string, country: string)
    requires db.WellFormed()
    requires LookupId(db.users, auth.userId).Some?
    ensures var posted := PostShipping(db, Current, auth, address, city, postalCode, country);
      posted.reply.ShippingJson? &&
      var removed := DeleteShipping(posted.db, auth, IntToString(posted.reply.shippingId));
      && removed.reply.Removed?
      && removed.db.shippings.rows == db.shippings.rows
  {
    var posted := PostShipping(db, Current, auth, address, city, postalCode, country);
    var sid := posted.reply.shippingId;
    NumberOfIntToString(sid);
    assert posted.db.shippings.rows == db.shippings.rows[sid := posted.reply.shipping];
    var removed := DeleteShipping(posted.db, auth, IntToString(sid));
    assert removed.db.shippings.rows == posted.db.shippings.rows - {sid};
    assert sid !in db.shippings.rows;
    assert removed.db.shippings.rows == db.shippings.rows;
  }
}

=== FILE: store.dfy ===
/**
 * The persistent state the handlers read and write: one auto-increment
 * table per entity the core touches (users, refresh-token records,
 * shipping addresses, order items, payments, orders), and the product
 * catalog, which the core only reads. A row's id is its key in its table.
 */
module Store {
  import opened Wrappers
  import opened Tables
  import Text

  datatype Role = Admin | Customer | Manager

  datatype Status = Active | Banned | Valid

  /** The role as it is stored and as it travels in a token. */
  function RoleName(r: Role): string
  {
    match r
    case Admin => "admin"
    case Customer => "customer"
    case Manager => "manager"
  }

  /** `password` is always a bcrypt hash, never a plaintext. */
  datatype User = User(fullName: string, email: string, password: string, role: Role, status: Status)

  /** A refresh-token record: its existence is what keeps a session alive. */
  datatype TokenRecord = TokenRecord(userId: int, expiresAt: int)

  /** `country` is absent on addresses the earlier revision created. */
  datatype Shipping = Shipping(address: string, city: string, postalCode: string, country: Option<string>, ownerId: int)

  datatype Price = Price(size: string, amount: int)

  datatype Product = Product(prices: seq<Price>)

  /** The products by id; the catalog is read here, never written. */
  type Catalog = map<int, Product>

  datatype OrderItem = OrderItem(productId: int, quantity: int)

  datatype Payment = Payment(amount: int, paymentMethod: string)

  datatype Order = Order(userId: int, shippingId: int, paymentId: int, itemIds: seq<int>)

  datatype Db = Db(
    users: Table<User>,
    tokens: Table<TokenRecord>,
    shippings: Table<Shipping>,
    products: Catalog,
    orderItems: Table<OrderItem>,
    payments: Table<Payment>,
    orders: Table<Order>)
  {
    ghost predicate WellFormed()
    {
      && users.Valid()
      && tokens.Valid()
      && shippings.Valid()
      && orderItems.Valid()
      && payments.Valid()
      && orders.Valid()
    }
  }

  /** True when some stored user has this email. */
  predicate Registered(users: Table<User>, email: string)
  {
    exists id :: id in users.rows && users.rows[id].email == email
  }

  /** The lowest id in [from, users.next) whose user has this email. */
  function FindFrom(users: Table<User>, email: string, from: int): (r: Option<int>)
    ensures r.Some? ==> from <= r.value && r.value in users.rows && users.rows[r.value].email == email
    ensures forall id :: from <= id < users.next && id in users.rows && users.rows[id].email == email ==>
      r.Some? && r.value <= id
    decreases users.next - from
  {
    if from >= users.next then None
    else if from in users.rows && users.rows[from].email == email then Some(from)
    else FindFrom(users, email, from + 1)
  }

  /**
   * `getByEmail(email)` / `findUserByEmail(email)`: `findOne({where: {email}})`.
   * The schema does not make emails unique; the model answers with the
   * lowest matching id.
   */
  function FindByEmail(users: Table<User>, email: string): (r: Option<int>)
    requires users.Valid()
    ensures r.Some? <==> Registered(users, email)
    ensures r.Some? ==> r.value in users.rows && users.rows[r.value].email == email
    ensures r.Some? ==> forall id :: id in users.rows && users.rows[id].email == email ==> r.value <= id
  {
    FindFrom(users, email, 1)
  }

  /** The row a query by `Number(s)` finds: none when `s` is not an integral number. */
  function LookupId<T>(t: Table<T>, s: string): (r: Option<int>)
    ensures r.Some? <==> Text.IdOf(s).Some? && Text.IdOf(s).value in t.rows
    ensures r.Some? ==> r.value == Text.IdOf(s).value
  {
    match Text.IdOf(s)
    case Some(id) => if id in t.rows then Some(id) else None
    case None => None
  }
}

=== FILE: tables.dfy ===
/**
 * A relational table with an auto-increment integer primary key, the shape
 * every repository the core touches has: rows by id, and the next id the
 * sequence will hand out.
 */
module Tables {
  import opened Wrappers

  datatype Table<T> = Table(rows: map<int, T>, next: int) {

    /** Every stored id was handed out by the sequence, which starts at 1. */
    ghost predicate Valid()
    {
      next >= 1 && forall id :: id in rows ==> 1 <= id < next
    }

    /** `repository.save(row)` of a new row: it receives a fresh id. */
    function Insert(row: T): (r: (Table<T>, int))
      requires Valid()
      ensures r.0.Valid()
      ensures r.1 >= 1 && r.1 !in rows
      ensures r.0.rows == rows[r.1 := row]
      ensures r.1 == next && r.0.next == next + 1
    {
      (Table(rows[next := row], next + 1), next)
    }

    /** `repository.findOne({where: {id}})`. */
    function Get(id: int): (r: Option<T>)
      ensures r.Some? <==> id in rows
      ensures r.Some? ==> r.value == rows[id]
    {
      if id in rows then Some(rows[id]) else None
    }

    /** `repository.save(row)` of a row that already exists: it is overwritten. */
    function Put(id: int, row: T): (t: Table<T>)
      requires id in rows
      ensures Valid() ==> t.Valid()
      ensures t.rows.Keys == rows.Keys && t.rows[id] == row
      ensures forall other :: other in rows && other != id ==> t.rows[other] == rows[other]
    {
      Table(rows[id := row], next)
    }

    /** `repository.delete(id)`: removes that row, if any, and nothing else. */
    function Delete(id: int): (t: Table<T>)
      ensures Valid() ==> t.Valid()
      ensures id !in t.rows
      ensures t.rows.Keys == rows.Keys - {id}
      ensures forall other :: other in t.rows ==> t.rows[other] == rows[other]
    {
      Table(rows - {id}, next)
    }
  }

  function Empty<T>(): (t: Table<T>)
    ensures t.Valid() && t.rows == map[]
  {
    Table(map[], 1)
  }

  /** A saved row reads back until it is deleted; deleting another row leaves it. */
  lemma {:induction false} SavedRowReadsBackUntilDeleted<T>(t: Table<T>, row: T, other: int)
    requires t.Valid()
    ensures var (t', id) := t.Insert(row);
      && t'.Get(id) == Some(row)
      && (other != id ==> t'.Delete(other).Get(id) == Some(row))
      && t'.Delete(id).Get(id) == None
  {
    var (t', id) := t.Insert(row);
    assert id in t'.rows;
    if other != id {
      assert id in t'.Delete(other).rows;
    }
  }
}

=== FILE: text.dfy ===
/**
 * The string operations the ticket codec and the id parsing rely on, with
 * JavaScript's semantics: `split` and `join` on a one-character separator,
 * the decimal rendering of an integer (`${n}`), and the numeric conversion
 * done by `Number(s)` and unary `+s`.
 */
module Text {
  import opened Wrappers

  /** `s.split(sep)`: the pieces between the occurrences of `sep`, in order. */
  function Split(s: string, sep: char): (parts: seq<string>)
    ensures |parts| >= 1
    ensures forall i :: 0 <= i < |parts| ==> sep !in parts[i]
    decreases |s|
  {
    if |s| == 0 then [""]
    else
      var rest := Split(s[1..], sep);
      if s[0] == sep then [""] + rest
      else [[s[0]] + rest[0]] + rest[1..]
  }

  /** `parts.join(sep)`. */
  function Join(parts: seq<string>, sep: char): string
  {
    if |parts| == 0 then ""
    else if |parts| == 1 then parts[0]
    else parts[0] + [sep] + Join(parts[1..], sep)
  }

  /** True when no piece contains the separator, so that joining loses nothing. */
  predicate Separable(parts: seq<string>, sep: char)
  {
    forall i :: 0 <= i < |parts| ==> sep !in parts[i]
  }

  lemma {:induction false} SplitWithoutSeparator(a: string, sep: char)
    requires sep !in a
    ensures Split(a, sep) == [a]
    decreases |a|
  {
    if |a| > 0 {
      SplitWithoutSeparator(a[1..], sep);
      assert [a[0]] + a[1..] == a;
    }
  }

  lemma {:induction false} SplitAfterFirst(a: string, b: string, sep: char)
    requires sep !in a
    ensures Split(a + [sep] + b, sep) == [a] + Split(b, sep)
    decreases |a|
  {
    var s := a + [sep] + b;
    if |a| == 0 {
      assert s[1..] == b;
    } else {
      assert s[1..] == a[1..] + [sep] + b;
      SplitAfterFirst(a[1..], b, sep);
      assert [a[0]] + a[1..] == a;
    }
  }

  /** Splitting a join of separator-free pieces gives the pieces back. */
  lemma {:induction false} SplitJoin(parts: seq<string>, sep: char)
    requires |parts| >= 1
    requires Separable(parts, sep)
    ensures Split(Join(parts, sep), sep) == parts
    decreases |parts|
  {
    if |parts| == 1 {
      SplitWithoutSeparator(parts[0], sep);
    } else {
      SplitJoin(parts[1..], sep);
      SplitAfterFirst(parts[0], Join(parts[1..], sep), sep);
      assert [parts[0]] + parts[1..] == parts;
    }
  }

  /** Joining the pieces of a split gives the string back. */
  lemma {:induction false} JoinSplit(s: string, sep: char)
    ensures Join(Split(s, sep), sep) == s
    decreases |s|
  {
    if |s| > 0 {
      var rest := Split(s[1..], sep);
      JoinSplit(s[1..], sep);
      if s[0] == sep {
        assert ([""] + rest)[1..] == rest;
      } else if |rest| > 1 {
        var parts := [[s[0]] + rest[0]] + rest[1..];
        assert parts[1..] == rest[1..];
        assert Join(rest, sep) == rest[0] + [sep] + Join(rest[1..], sep);
        assert [s[0]] + s[1..] == s;
      } else {
        assert [s[0]] + s[1..] == s;
      }
    }
  }

  lemma JoinPair(a: string, b: string, sep: char)
    ensures Join([a, b], sep) == a + [sep] + b
  {
    assert [a, b][1..] == [b];
  }

  // ---------------------------------------------------------------------
  // Decimal digits

  predicate IsDigit(c: char) { '0' <= c <= '9' }

  predicate AllDigits(s: string) { forall i :: 0 <= i < |s| ==> IsDigit(s[i]) }

  function DigitChar(d: nat): (c: char)
    requires d < 10
    ensures IsDigit(c)
  {
    (('0' as int) + d) as char
  }

  function DigitValue(c: char): nat
    requires IsDigit(c)
  {
    (c as int) - ('0' as int)
  }

  /** The value of a string of decimal digits, most significant first. */
  function DigitsValue(s: string): nat
    requires AllDigits(s)
  {
    if |s| == 0 then 0 else DigitsValue(s[..|s| - 1]) * 10 + DigitValue(s[|s| - 1])
  }

  /** `${n}` for a natural number: its shortest decimal rendering. */
  function NatToString(n: nat): (s: string)
    ensures |s| >= 1 && AllDigits(s)
  {
    if n < 10 then [DigitChar(n)] else NatToString(n / 10) + [DigitChar(n % 10)]
  }

  /** `${n}` for an integer. */
  function IntToString(n: int): string
  {
    if n < 0 then "-" + NatToString(-n) else NatToString(n)
  }

  lemma {:induction false} NatToStringValue(n: nat)
    ensures DigitsValue(NatToString(n)) == n
  {
    if n >= 10 {
      var s := NatToString(n);
      assert s[..|s| - 1] == NatToString(n / 10);
      NatToStringValue(n / 10);
    }
  }

  /** A rendered integer is only digits and perhaps a leading minus sign. */
  lemma IntToStringAlphabet(n: int, c: char)
    requires c != '-' && !IsDigit(c)
    ensures c !in IntToString(n)
  {
    if n < 0 {
      assert IntToString(n) == "-" + NatToString(-n);
    }
  }

  // ---------------------------------------------------------------------
  // JavaScript numeric conversion

  /**
   * A JavaScript number, as far as comparisons with integers and integer
   * ids need it: NaN, or a finite x given by floor(x) and whether x has a
   * fractional part.
   */
  datatype Num = NaN | Finite(floor: int, fractional: bool)

  predicate HasNonZeroDigit(s: string) { exists i :: 0 <= i < |s| && s[i] != '0' }

  /**
   * An unsigned decimal literal `ddd`, `ddd.ddd`, `.ddd` or `ddd.` with at
   * least one digit: its integer part and whether the fraction is non-zero.
   */
  function UnsignedDecimal(b: string): (r: Option<(nat, bool)>)
    ensures r.Some? ==> forall i :: 0 <= i < |b| ==> IsDigit(b[i]) || b[i] == '.'
  {
    var parts := Split(b, '.');
    if |parts| == 1 then
      if |b| > 0 && AllDigits(b) then Some((DigitsValue(b), false)) else None
    else if |parts| == 2 && |parts[0]| + |parts[1]| > 0 && AllDigits(parts[0]) && AllDigits(parts[1]) then
      JoinSplit(b, '.');
      JoinPair(parts[0], parts[1], '.');
      assert b == parts[0] + ['.'] + parts[1];
      Some((DigitsValue(parts[0]), HasNonZeroDigit(parts[1])))
    else None
  }

  function Positive(u: Option<(nat, bool)>): Num
  {
    match u
    case None => NaN
    case Some((whole, frac)) => Finite(whole, frac)
  }

  function Negative(u: Option<(nat, bool)>): Num
  {
    match u
    case None => NaN
    case Some((whole, frac)) => if frac then Finite(-(whole as int) - 1, true) else Finite(-(whole as int), false)
  }

  /**
   * `Number(s)` (equivalently `+s`) for the empty string and for optionally
   * signed decimal literals; every other string is NaN.
   */
  function ToNumber(s: string): (x: Num)
    ensures x.Finite? ==> forall i :: 0 <= i < |s| ==> IsDigit(s[i]) || s[i] in ".+-"
  {
    if s == "" then Finite(0, false)
    else if s[0] == '-' then Negative(UnsignedDecimal(s[1..]))
    else if s[0] == '+' then Positive(UnsignedDecimal(s[1..]))
    else Positive(UnsignedDecimal(s))
  }

  /** JavaScript `now > x` for an integer `now`: false whenever x is NaN. */
  predicate Exceeds(now: int, x: Num)
  {
    x.Finite? && now > x.floor
  }

  /** `isNaN(Number(s))`. */
  predicate IsNaN(s: string) { ToNumber(s).NaN? }

  /**
   * The row id a query by `Number(s)` can match: only an integral number
   * names a row of an integer primary-key column.
   */
  function IdOf(s: string): (id: Option<int>)
    ensures id.Some? ==> !IsNaN(s)
  {
    match ToNumber(s)
    case Finite(whole, false) => Some(whole)
    case _ => None
  }

  /** Reading back a rendered integer gives the integer: `+String(n) === n`. */
  lemma NumberOfIntToString(n: int)
    ensures ToNumber(IntToString(n)) == Finite(n, false)
    ensures IdOf(IntToString(n)) == Some(n)
  {
    var digits := if n < 0 then NatToString(-n) else NatToString(n);
    assert '.' !in digits;
    SplitWithoutSeparator(digits, '.');
    NatToStringValue(if n < 0 then -n else n);
    if n < 0 {
      assert IntToString(n)[1..] == digits;
    }
  }

  /** A string with a character outside `0-9 . + -` is NaN. */
  lemma StrayCharacterIsNaN(s: string, i: int)
    requires 0 <= i < |s|
    requires !IsDigit(s[i]) && s[i] !in ".+-"
    ensures ToNumber(s) == NaN
  {
  }
}

=== FILE: tokens.dfy ===
/**
 * The token service (services/Token.ts and the earlier
 * services/token.services.ts): signing access and refresh tokens, and the
 * refresh-token records that make a refresh token revocable.
 */
module Tokens {
  import opened Wrappers
  import opened Http
  import opened Credential
  import opened Jwt
  import opened Tables
  import opened Store

  /** `1000 * 60 * 60 * 24 * 365`: a record's lifetime, in milliseconds. */
  const MsInYear := 31_536_000_000

  /** `expiresIn: "24h"`, in seconds. */
  const AccessLifetime := 86_400

  /** `expiresIn: "1y"`, in seconds: the `ms` library counts a year as 365.25 days. */
  const RefreshLifetime := 31_557_600

  /** `jwtid: String(payload.id)`: no caller puts an `id` in the payload. */
  const UndefinedJwtId := "undefined"

  const MsgPrivateKeyMissing := "PRIVATE_KEY is not found!"
  const MsgRefreshSecretMissing := "TOKEN_SECRET is not found!"
  const MsgVerifySecretMissing := "SECRET_HASH is not found!"

  /** `signAccessToken(payload)`: RS256 under PRIVATE_KEY, valid for a day. */
  function SignAccessToken(cfg: Config, claims: Claims, now: int): (r: Result<Token>)
    ensures r.Err? <==> !Present(cfg.privateKey)
    ensures r.Err? ==> r.error == HttpError(ServerError, MsgPrivateKeyMissing)
    ensures r.Ok? ==> && r.value.alg == RS256 && r.value.signingKey == cfg.privateKey.value
                      && r.value.claims == claims && r.value.issuer == Issuer
                      && r.value.issuedAt == now / 1000
                      && r.value.expiresAt == r.value.issuedAt + AccessLifetime
                      && r.value.jwtId.None?
  {
    if !Present(cfg.privateKey) then Err(HttpError(ServerError, MsgPrivateKeyMissing))
    else Ok(Sign(RS256, cfg.privateKey.value, claims, now, AccessLifetime, None))
  }

  /** `signRefreshToken(payload)`: HS256 under REFRESH_TOKEN_SECRET, valid for a year. */
  function SignRefreshToken(cfg: Config, claims: Claims, now: int): (r: Result<Token>)
    ensures r.Err? <==> !Present(cfg.refreshSecret)
    ensures r.Err? ==> r.error == HttpError(ServerError, MsgRefreshSecretMissing)
    ensures r.Ok? ==> && r.value.alg == HS256 && r.value.signingKey == cfg.refreshSecret.value
                      && r.value.claims == claims && r.value.issuer == Issuer
                      && r.value.issuedAt == now / 1000
                      && r.value.expiresAt == r.value.issuedAt + RefreshLifetime
                      && r.value.jwtId == Some(UndefinedJwtId)
  {
    if !Present(cfg.refreshSecret) then Err(HttpError(ServerError, MsgRefreshSecretMissing))
    else Ok(Sign(HS256, cfg.refreshSecret.value, claims, now, RefreshLifetime, Some(UndefinedJwtId)))
  }

  /** `verifyRefreshToken(token)`: 500 without the secret, else the library's verdict. */
  function VerifyRefreshToken(cfg: Config, t: Token, now: int): (r: Result<Claims>)
    ensures !Present(cfg.refreshSecret) ==> r == Err(HttpError(ServerError, MsgVerifySecretMissing))
    ensures r.Ok? <==> Present(cfg.refreshSecret) && t.alg == HS256 && t.signingKey == cfg.refreshSecret.value && now / 1000 < t.expiresAt
    ensures r.Ok? ==> r.value == t.claims
  {
    if !Present(cfg.refreshSecret) then Err(HttpError(ServerError, MsgVerifySecretMissing))
    else Verify(t, cfg.refreshSecret.value, now)
  }

  /**
   * A refresh token verifies exactly until its `exp` second has begun, and
   * an access token never passes as a refresh token.
   */
  lemma RefreshTokenVerifiesUntilExpiry(cfg: Config, claims: Claims, issued: int, now: int)
    requires Present(cfg.refreshSecret)
    ensures VerifyRefreshToken(cfg, SignRefreshToken(cfg, claims, issued).value, now).Ok?
        <==> now / 1000 < issued / 1000 + RefreshLifetime
    ensures Present(cfg.privateKey) ==> VerifyRefreshToken(cfg, SignAccessToken(cfg, claims, issued).value, now).Err?
  {
  }

  /**
   * `jwtid` never tells two sessions apart: every refresh token carries the
   * same `jti`, so revocation can only go by the custom `tokenId` claim.
   */
  lemma JwtIdDoesNotNameTheSession(cfg: Config, c1: Claims, c2: Claims, t1: int, t2: int)
    requires Present(cfg.refreshSecret)
    ensures SignRefreshToken(cfg, c1, t1).value.jwtId == SignRefreshToken(cfg, c2, t2).value.jwtId
  {
  }

  /**
   * `saveRefreshToken(user)` and `save({user, expiresAt})`: one new record
   * for the user, expiring a year after `now`, under a fresh id.
   */
  function SaveRefreshToken(tokens: Table<TokenRecord>, userId: int, now: int): (r: (Table<TokenRecord>, int))
    requires tokens.Valid()
    ensures r.0.Valid()
    ensures r.1 !in tokens.rows
    ensures r.0.rows == tokens.rows[r.1 := TokenRecord(userId, now + MsInYear)]
  {
    tokens.Insert(TokenRecord(userId, now + MsInYear))
  }

  /** `getById(tokenId)`. */
  function GetTokenById(tokens: Table<TokenRecord>, id: int): Option<TokenRecord>
  {
    tokens.Get(id)
  }

  /** `delete(tokenId)` / `deleteToken(tokenId)`: that record goes, every other one stays. */
  function DeleteToken(tokens: Table<TokenRecord>, id: int): (t: Table<TokenRecord>)
    ensures tokens.Valid() ==> t.Valid()
    ensures id !in t.rows && t.rows.Keys == tokens.rows.Keys - {id}
    ensures forall other :: other in t.rows ==> t.rows[other] == tokens.rows[other]
  {
    tokens.Delete(id)
  }

  /** A saved record reads back by id until it is deleted. */
  lemma SavedRecordReadsBackUntilDeleted(tokens: Table<TokenRecord>, userId: int, now: int, other: int)
    requires tokens.Valid()
    ensures var (t, id) := SaveRefreshToken(tokens, userId, now);
      && GetTokenById(t, id) == Some(TokenRecord(userId, now + MsInYear))
      && (other != id ==> GetTokenById(DeleteToken(t, other), id) == Some(TokenRecord(userId, now + MsInYear)))
      && GetTokenById(DeleteToken(t, id), id) == None
  {
    SavedRowReadsBackUntilDeleted(tokens, TokenRecord(userId, now + MsInYear), other);
  }
}

=== FILE: users.dfy ===
/**
 * The account operations of the user controller (controllers/User.ts, and
 * the earlier controllers/user.controller.ts): a signed-in user renames
 * themselves, changes their password or deletes their account; an admin
 * reads, updates or deletes any account.
 *
 * `auth` is the payload of a verified access token, which the access-token
 * gate puts on the request before these handlers run.
 */
module Users {
  import opened Wrappers
  import opened Http
  import opened Text
  import opened Credential
  import Jwt
  import opened Tables
  import opened Store
  import opened Replies
  import Auth

  const MsgOldPasswordMismatch := "Old password does not match!"
  const MsgInvalidParamId := "Invalid param id!"
  const MsgInvalidUserId := "Invalid user id!"
  const MsgUserIdInvalid := "User id is invalid!"

  /**
   * `userService.delete(id)`: the user goes, and with it every shipping
   * address it owns (the relation is `onDelete: "CASCADE"`).
   */
  function RemoveUser(db: Db, uid: int): (db': Db)
    ensures db.WellFormed() ==> db'.WellFormed()
    ensures db' == db.(users := db'.users, shippings := db'.shippings)
    ensures db'.users == db.users.Delete(uid)
    ensures db'.shippings.next == db.shippings.next
    ensures forall sid :: sid in db'.shippings.rows <==> sid in db.shippings.rows && db.shippings.rows[sid].ownerId != uid
    ensures forall sid :: sid in db'.shippings.rows ==> db'.shippings.rows[sid] == db.shippings.rows[sid]
  {
    var kept := map sid | sid in db.shippings.rows && db.shippings.rows[sid].ownerId != uid :: db.shippings.rows[sid];
    db.(users := db.users.Delete(uid), shippings := Table(kept, db.shippings.next))
  }

  /** updateUserFullName: only `fullName` changes. */
  function UpdateUserFullName(db: Db, rev: Revision, auth: Jwt.Claims, fullName: string): (r: Step)
    ensures db.WellFormed() ==> r.db.WellFormed()
    ensures LookupId(db.users, auth.userId).None? ==> r == Step(db, Failed(BadRequest, MsgUserNotFound))
    ensures LookupId(db.users, auth.userId).Some? ==>
      var uid := IdOf(auth.userId).value;
      var u' := db.users.rows[uid].(fullName := fullName);
      && r.db == db.(users := r.db.users)
      && r.db.users.rows == db.users.rows[uid := u']
      && r.reply == UserJson(Some(View(uid, u', rev)), Unchanged)
  {
    match LookupId(db.users, auth.userId)
    case None => Step(db, Failed(BadRequest, MsgUserNotFound))
    case Some(uid) =>
      var u' := db.users.rows[uid].(fullName := fullName);
      Step(db.(users := db.users.Put(uid, u')), UserJson(Some(View(uid, u', rev)), Unchanged))
  }

  /**
   * A rename reads back: `self` with the same token then shows the new name,
   * with the email, role and status as they were.
   */
  lemma RenameReadsBackThroughSelf(db: Db, rev: Revision, auth: Jwt.Claims, fullName: string)
    requires LookupId(db.users, auth.userId).Some?
    ensures var r := UpdateUserFullName(db, rev, auth, fullName);
      var u := db.users.rows[IdOf(auth.userId).value];
      var s := Auth.Self(r.db, rev, auth);
      && s.reply.UserJson? && s.reply.user.Some?
      && s.reply.user.value.fullName == fullName
      && s.reply.user.value.email == u.email
      && s.reply.user.value.role == u.role && s.reply.user.value.status == u.status
  {
  }

  /**
   * changePassword: the old password must match the stored hash; then
   * only the hash changes, to the hash of the new password. The reply is
   * a message with no user.
   */
  function ChangePassword(env: Env, db: Db, auth: Jwt.Claims, oldPassword: string, newPassword: string, salt: int): (r: Step)
    ensures db.WellFormed() ==> r.db.WellFormed()
    ensures LookupId(db.users, auth.userId).None? ==> r == Step(db, Failed(BadRequest, MsgUserNotFound))
    ensures LookupId(db.users, auth.userId).Some? ==>
      var uid := IdOf(auth.userId).value;
      var u := db.users.rows[uid];
      && (!HashCompare(env.crypto, oldPassword, u.password) ==> r == Step(db, Failed(BadRequest, MsgOldPasswordMismatch)))
      && (HashCompare(env.crypto, oldPassword, u.password) ==>
            && r.reply == Done
            && r.db == db.(users := r.db.users)
            && r.db.users.rows == db.users.rows[uid := u.(password := HashData(env.crypto, newPassword, salt))])
  {
    match LookupId(db.users, auth.userId)
    case None => Step(db, Failed(BadRequest, MsgUserNotFound))
    case Some(uid) =>
      var u := db.users.rows[uid];
      if !HashCompare(env.crypto, oldPassword, u.password) then Step(db, Failed(BadRequest, MsgOldPasswordMismatch))
      else Step(db.(users := db.users.Put(uid, u.(password := HashData(env.crypto, newPassword, salt)))), Done)
  }

  /**
   * With sound bcrypt, a password change from the right old password stores
   * the new password's hash. It accepts the new password, and it accepts
   * the old one exactly when the two share their bcrypt key. When the keys
   * differ, the stored hash changes.
   */
  lemma ChangedPasswordReplacesTheHash(env: Env, db: Db, auth: Jwt.Claims, oldPassword: string, newPassword: string,
                                       oldSalt: int, salt: int)
    requires BcryptSound(env.crypto)
    requires LookupId(db.users, auth.userId).Some?
    requires db.users.rows[IdOf(auth.userId).value].password == HashData(env.crypto, oldPassword, oldSalt)
    ensures var r := ChangePassword(env, db, auth, oldPassword, newPassword, salt);
      var uid := IdOf(auth.userId).value;
      && r.reply == Done
      && HashCompare(env.crypto, newPassword, r.db.users.rows[uid].password)
      && (HashCompare(env.crypto, oldPassword, r.db.users.rows[uid].password) <==> BcryptKey(oldPassword) == BcryptKey(newPassword))
      && (BcryptKey(oldPassword) != BcryptKey(newPassword) ==> r.db.users.rows[uid].password != db.users.rows[uid].password)
  {
    HashCompareComparesKeys(env.crypto, oldPassword, oldPassword, oldSalt);
    HashCompareComparesKeys(env.crypto, newPassword, oldPassword, salt);
    HashCompareComparesKeys(env.crypto, newPassword, newPassword, salt);
  }

  /**
   * A change between two passwords that share their first 72 characters
   * leaves the old password working.
   */
  lemma OldPasswordSurvivesALongSharedPrefix(env: Env, db: Db, auth: Jwt.Claims, s: string, t1: string, t2: string,
                                             oldSalt: int, salt: int)
    requires BcryptSound(env.crypto) && |s| >= BcryptKeyMax
    requires LookupId(db.users, auth.userId).Some?
    requires db.users.rows[IdOf(auth.userId).value].password == HashData(env.crypto, s + t1, oldSalt)
    ensures var r := ChangePassword(env, db, auth, s + t1, s + t2, salt);
      && r.reply == Done
      && HashCompare(env.crypto, s + t1, r.db.users.rows[IdOf(auth.userId).value].password)
  {
    HashCompareComparesKeys(env.crypto, s + t1, s + t1, oldSalt);
    LongPasswordsShareTheirHash(env.crypto, s, t1, t2, salt);
  }

  /** deleteUser: the signed-in user's account goes and both cookies are cleared. */
  function DeleteUser(db: Db, auth: Jwt.Claims): (r: Step)
    ensures db.WellFormed() ==> r.db.WellFormed()
    ensures LookupId(db.users, auth.userId).None? ==> r == Step(db, Failed(BadRequest, MsgUserNotFound))
    ensures LookupId(db.users, auth.userId).Some? ==>
      r == Step(RemoveUser(db, IdOf(auth.userId).value), UserJson(None, Cleared))
  {
    match LookupId(db.users, auth.userId)
    case None => Step(db, Failed(BadRequest, MsgUserNotFound))
    case Some(uid) => Step(RemoveUser(db, uid), UserJson(None, Cleared))
  }

  /** Once deleted, an account is not found by the same token, and owns no address. */
  lemma DeletedAccountIsGone(db: Db, auth: Jwt.Claims, rev: Revision, fullName: string)
    requires LookupId(db.users, auth.userId).Some?
    ensures var r := DeleteUser(db, auth);
      && UpdateUserFullName(r.db, rev, auth, fullName) == Step(r.db, Failed(BadRequest, MsgUserNotFound))
      && DeleteUser(r.db, auth) == Step(r.db, Failed(BadRequest, MsgUserNotFound))
      && forall sid :: sid in r.db.shippings.rows ==> r.db.shippings.rows[sid].ownerId != IdOf(auth.userId).value
  {
  }

  /** getUser: the account the path parameter names. */
  function GetUser(db: Db, rev: Revision, param: string): (r: Step)
    ensures r.db == db
    ensures IsNaN(param) ==> r.reply == Failed(BadRequest, MsgInvalidParamId)
    ensures !IsNaN(param) && LookupId(db.users, param).None? ==> r.reply == Failed(BadRequest, MsgUserNotFound)
    ensures r.reply.UserJson? <==> LookupId(db.users, param).Some?
    ensures r.reply.UserJson? ==>
      var uid := IdOf(param).value;
      r.reply.user == Some(View(uid, db.users.rows[uid], rev)) && r.reply.cookies.Unchanged?
  {
    if IsNaN(param) then Step(db, Failed(BadRequest, MsgInvalidParamId))
    else match LookupId(db.users, param)
      case None => Step(db, Failed(BadRequest, MsgUserNotFound))
      case Some(uid) => Step(db, UserJson(Some(View(uid, db.users.rows[uid], rev)), Unchanged))
  }

  /** updateUser (admin): exactly `role` and `status` change. */
  function UpdateUser(db: Db, param: string, role: Role, status: Status): (r: Step)
    ensures db.WellFormed() ==> r.db.WellFormed()
    ensures IsNaN(param) ==> r == Step(db, Failed(BadRequest, MsgUserIdInvalid))
    ensures !IsNaN(param) && LookupId(db.users, param).None? ==> r == Step(db, Failed(BadRequest, MsgUserNotFound))
    ensures LookupId(db.users, param).Some? ==>
      var uid := IdOf(param).value;
      var u := db.users.rows[uid];
      var u' := User(u.fullName, u.email, u.password, role, status);
      && r.db == db.(users := r.db.users)
      && r.db.users.rows == db.users.rows[uid := u']
      && r.reply == UserJson(Some(View(uid, u', Current)), Unchanged)
  {
    if IsNaN(param) then Step(db, Failed(BadRequest, MsgUserIdInvalid))
    else match LookupId(db.users, param)
      case None => Step(db, Failed(BadRequest, MsgUserNotFound))
      case Some(uid) =>
        var u' := db.users.rows[uid].(role := role, status := status);
        Step(db.(users := db.users.Put(uid, u')), UserJson(Some(View(uid, u', Current)), Unchanged))
  }

  /**
   * An admin update reads back through getUser: the account shows the new
   * role and status with its name and email kept, and every other id reads
   * exactly as before.
   */
  lemma UpdatedRoleReadsBack(db: Db, param: string, role: Role, status: Status, rev: Revision)
    requires LookupId(db.users, param).Some?
    ensures var r := UpdateUser(db, param, role, status);
      var u := db.users.rows[IdOf(param).value];
      var g := GetUser(r.db, rev, param);
      && g.reply.UserJson? && g.reply.user.Some?
      && g.reply.user.value.role == role && g.reply.user.value.status == status
      && g.reply.user.value.fullName == u.fullName && g.reply.user.value.email == u.email
    ensures var r := UpdateUser(db, param, role, status);
      forall other :: IdOf(other) != IdOf(param) ==> GetUser(r.db, rev, other).reply == GetUser(db, rev, other).reply
  {
    var r := UpdateUser(db, param, role, status);
    forall other | IdOf(other) != IdOf(param)
      ensures GetUser(r.db, rev, other).reply == GetUser(db, rev, other).reply
    {
      if LookupId(db.users, other).Some? {
        assert r.db.users.rows[IdOf(other).value] == db.users.rows[IdOf(other).value];
      }
    }
  }

  /** deleteUserByAdmin: any account, by path parameter; the reply echoes the parameter. */
  function DeleteUserByAdmin(db: Db, param: string): (r: Step)
    ensures db.WellFormed() ==> r.db.WellFormed()
    ensures IsNaN(param) ==> r == Step(db, Failed(BadRequest, MsgInvalidUserId))
    ensures !IsNaN(param) && LookupId(db.users, param).None? ==> r == Step(db, Failed(BadRequest, MsgUserNotFound))
    ensures LookupId(db.users, param).Some? ==> r == Step(RemoveUser(db, IdOf(param).value), Removed(param))
  {
    if IsNaN(param) then Step(db, Failed(BadRequest, MsgInvalidUserId))
    else match LookupId(db.users, param)
      case None => Step(db, Failed(BadRequest, MsgUserNotFound))
      case Some(uid) => Step(RemoveUser(db, uid), Removed(param))
  }

  /**
   * The admin deletion of the signed-in user's own id removes the same
   * rows as the self-service deletion.
   */
  lemma AdminAndSelfDeletionAgree(db: Db, auth: Jwt.Claims)
    requires LookupId(db.users, auth.userId).Some?
    ensures DeleteUserByAdmin(db, auth.userId).db == DeleteUser(db, auth).db
  {
  }
}

=== FILE: utf8.dfy ===
/**
 * The UTF-8 encoding of a string (RFC 3629, section 3), which is how Node
 * hands a JavaScript string to native code such as bcrypt. A string here
 * is a sequence of Unicode scalar values; bytes are integers in [0, 256).
 */
module Utf8 {
  /** The one to four bytes that encode a scalar value: a lead byte, then six bits per byte. */
  function EncodeChar(c: char): (bytes: seq<int>)
    ensures 1 <= |bytes| <= 4
    ensures forall i :: 0 <= i < |bytes| ==> 0 <= bytes[i] < 0x100
  {
    var n := c as int;
    var n1 := n / 0x40;
    var n2 := n1 / 0x40;
    if n < 0x80 then [n]
    else if n < 0x800 then [0xC0 + n1, 0x80 + n % 0x40]
    else if n < 0x1_0000 then [0xE0 + n2, 0x80 + n1 % 0x40, 0x80 + n % 0x40]
    else [0xF0 + n2 / 0x40, 0x80 + n2 % 0x40, 0x80 + n1 % 0x40, 0x80 + n % 0x40]
  }

  /** The scalar value a character's bytes stand for. */
  function DecodeChar(e: seq<int>): int
    requires 1 <= |e| <= 4
  {
    if |e| == 1 then e[0]
    else if |e| == 2 then (e[0] - 0xC0) * 0x40 + (e[1] - 0x80)
    else if |e| == 3 then ((e[0] - 0xE0) * 0x40 + (e[1] - 0x80)) * 0x40 + (e[2] - 0x80)
    else (((e[0] - 0xF0) * 0x40 + (e[1] - 0x80)) * 0x40 + (e[2] - 0x80)) * 0x40 + (e[3] - 0x80)
  }

  /** Decoding undoes the encoding of every character. */
  lemma DecodeEncodeChar(c: char)
    ensures DecodeChar(EncodeChar(c)) == c as int
  {
    var n := c as int;
    var n1 := n / 0x40;
    var n2 := n1 / 0x40;
    assert n == n1 * 0x40 + n % 0x40;
    assert n1 == n2 * 0x40 + n1 % 0x40;
    assert n2 == (n2 / 0x40) * 0x40 + n2 % 0x40;
  }

  /** The encoding of a string: its characters' encodings, in order. */
  function Encode(s: string): (bytes: seq<int>)
    ensures |bytes| >= |s|
    ensures forall i :: 0 <= i < |bytes| ==> 0 <= bytes[i] < 0x100
  {
    if |s| == 0 then [] else EncodeChar(s[0]) + Encode(s[1..])
  }

  /** The lead byte of a character's encoding tells how many bytes it has. */
  function LengthOfLead(b: int): nat
  {
    if b < 0x80 then 1 else if b < 0xE0 then 2 else if b < 0xF0 then 3 else 4
  }

  lemma LeadGivesLength(c: char)
    ensures LengthOfLead(EncodeChar(c)[0]) == |EncodeChar(c)|
  {
  }

  /** Distinct characters have distinct encodings. */
  lemma EncodeCharInjective(a: char, b: char)
    requires EncodeChar(a) == EncodeChar(b)
    ensures a == b
  {
    DecodeEncodeChar(a);
    DecodeEncodeChar(b);
  }

  /** No character's encoding is a proper prefix of another's. */
  lemma EncodeCharPrefixFree(a: char, b: char, x: seq<int>, y: seq<int>)
    requires EncodeChar(a) + x == EncodeChar(b) + y
    ensures a == b && x == y
  {
    var ea, eb := EncodeChar(a), EncodeChar(b);
    assert (ea + x)[0] == ea[0] && (eb + y)[0] == eb[0];
    LeadGivesLength(a);
    LeadGivesLength(b);
    assert |ea| == |eb|;
    assert ea == (ea + x)[..|ea|] && eb == (eb + y)[..|eb|];
    EncodeCharInjective(a, b);
    assert x == (ea + x)[|ea|..] && y == (eb + y)[|eb|..];
  }

  /** Distinct strings have distinct encodings. */
  lemma {:induction false} EncodeInjective(s: string, t: string)
    requires Encode(s) == Encode(t)
    ensures s == t
    decreases |s|
  {
    if |s| == 0 || |t| == 0 {
      assert |Encode(s)| == 0 || |Encode(t)| == 0;
    } else {
      EncodeCharPrefixFree(s[0], t[0], Encode(s[1..]), Encode(t[1..]));
      EncodeInjective(s[1..], t[1..]);
      assert s == [s[0]] + s[1..] && t == [t[0]] + t[1..];
    }
  }

  /** Encoding a concatenation concatenates the encodings. */
  lemma {:induction false} EncodeAppend(s: string, t: string)
    ensures Encode(s + t) == Encode(s) + Encode(t)
    decreases |s|
  {
    if |s| == 0 {
      assert s + t == t;
    } else {
      assert (s + t)[0] == s[0] && (s + t)[1..] == s[1..] + t;
      EncodeAppend(s[1..], t);
    }
  }
}

=== FILE: wrappers.dfy ===
/** Optional values: the `T | null` results of the store lookups. */
module Wrappers {

  datatype Option<+T> = None | Some(value: T) {

    /** The wrapped value, or `default` when there is none. */
    function GetOr(default: T): T {
      match this
      case Some(v) => v
      case None => default
    }
  }
}
